=== FILE: README.md ===
# Portfolio music player and backend checks, modelled in Dafny

This project models three small cores of a personal portfolio site.

1. **The LRC lyric parser** (`parseLrc`). It splits LRC text into lines. On each line it takes the leftmost
   `[mm:ss.ff]` or `[mm:ss.fff]` tag, converts it to a time, and cuts it out. The rest of the line is
   trimmed, and the line becomes a cue if that text is not empty.
2. **The music player** (`MusicPlayer`). Its React state is a datatype, and each handler is a pure
   transition:
   - play/pause;
   - next/previous with wrap-around;
   - the lyrics toggle;
   - the `timeupdate` lyric highlighter;
   - the load-error handler.

   The track-change effect is folded into every transition that changes the index. The error
   handler's one-second `setTimeout` becomes a queue of pending target indices, which a `Fire` event
   consumes. The built-in default playlist is modelled too.
3. **Small string checks**, and the backend's request validation:
   - `secureUrl`;
   - the `Authorization: Bearer` parse;
   - the email pattern;
   - the required-field checks of register, login and config;
   - the HTTP status each outcome gets.

Files, one Dafny module each:

| file | module | what |
|---|---|---|
| `wrappers.dfy` | `Wrappers` | `Option`, standing for `undefined`/`null` |
| `jstext.dfy` | `JsText` | JavaScript's `\s`, `trim`, `split("\n")` and the regex `i` flag |
| `lrc.dfy` | `Lrc` | the tag matcher, the parser, and a writer for the round trip |
| `lrc_examples.dfy` | `LrcExamples` | worked inputs, one parsing rule each |
| `resolver.dfy` | `LyricResolver` | the active-line `findIndex` |
| `audio_utils.dfy` | `AudioUtils` | `secureUrl` |
| `playlist.dfy` | `Playlist` | tracks, `DEFAULT_PLAYLIST` and the playlist fallback |
| `player.dfy` | `MusicPlayer` | the player state machine |
| `server.dfy` | `Server` | header parse, email check, handlers and status codes |

Some conventions hold throughout:
- Times are whole milliseconds: `min*60000 + sec*1000 + (two-digit fraction ? ff*10 : fff)`.
- Strings are sequences of Unicode scalar values.
- Storage, hashing and token signing are inputs to the handlers. Each handler is therefore stated for
  every outcome modelled here for those libraries.

`portfolio-generator/src/components/Preview.jsx` carries inline copies of `parseLrc` (118-139),
`secureUrl` (142-145) and the whole player (148-231). They are the same code as `lrc.js`,
`audioUtils.js` and `MusicPlayer.jsx`, so each piece is modelled once. The table cites both copies.

The model follows the code as written; in particular:
- On a track change, the code resets the highlighted line to 0, not -1.
- The code never cancels a pending error-recovery advance. It keeps the index it captured, so a later
  manual track change can be overridden (`StaleAdvance`).
- The track-change effect depends on `[currentIndex, currentSong]`. With the playlist held fixed, as
  this model holds it, it re-runs only when the index actually changes. So with a single track, the
  advance after an error selects the same index again, and the error flag stays raised
  (`SingleTrackErrorPersists`).

## Model

| member | source | states |
|---|---|---|
| JsText.Trim | frontend/src/components/music/lrc.js:18 | the trimmed text has no whitespace at either end and is no longer than the input |
| JsText.TrimCharacterization | frontend/src/components/music/lrc.js:18 | `trim` strips exactly the surrounding whitespace: whitespace + a trimmed core + whitespace trims to that core |
| JsText.TrimIdempotent | frontend/src/components/music/lrc.js:18 | trimming twice is trimming once |
| JsText.TrimmedIsOwnTrim | frontend/src/components/music/lrc.js:18 | text with no whitespace at either end is left as it is by `trim` |
| JsText.TrimDropsTrailing | frontend/src/components/music/lrc.js:18 | `trim` removes trailing whitespace, such as the `\r` of a CRLF line, and nothing more |
| JsText.Lines | frontend/src/components/music/lrc.js:4 | `split("\n")` gives one piece more than there are newlines, and no piece contains a newline |
| JsText.JoinLinesOfLines | frontend/src/components/music/lrc.js:4 | joining the pieces with newlines gives back the text |
| JsText.LinesOfConcat | frontend/src/components/music/lrc.js:4 | the lines of `a + "\n" + b` are the lines of `a` followed by the lines of `b` |
| JsText.LinesOfJoinLines | frontend/src/components/music/lrc.js:4 | newline-free pieces joined with newlines split back into the same pieces |
| Lrc.DigitsValueOfDigits | frontend/src/components/music/lrc.js:12-14 | `parseInt` of a number written with fixed width gives the number back |
| Lrc.DigitsOfDigitsValue | frontend/src/components/music/lrc.js:12-14 | a digit string is the fixed-width writing of its `parseInt` value |
| Lrc.TagAt | frontend/src/components/music/lrc.js:7 | a tag found by the pattern has two-digit minutes and seconds, a two- or three-digit fraction, and lies inside the line |
| Lrc.TagAtIff | frontend/src/components/music/lrc.js:7-16 | the matcher finds tag `t` at position `p` if and only if the text there is `t` written out |
| Lrc.FindTag | frontend/src/components/music/lrc.js:10 | `exec` returns the leftmost match: nothing matches before it, and there is no result exactly when nothing matches anywhere |
| Lrc.TimeWithinRange | frontend/src/components/music/lrc.js:16-17 | no tag the pattern accepts points later than 99:99.999, that is 6039999 ms |
| Lrc.FindTagFindsAny | frontend/src/components/music/lrc.js:10-11 | `exec` returns a match exactly when some position of the line holds a tag |
| Lrc.ParseLineWithLeadingTag | frontend/src/components/music/lrc.js:10-19 | a line that starts with a tag gives the tag's time and the trimmed rest, or no cue when the rest trims to nothing |
| Lrc.ParseLine | frontend/src/components/music/lrc.js:10-19 | a line gives a cue if and only if it has a tag and the text without the first tag trims to something non-empty; the cue's time is that first tag's time in milliseconds and its text is the line with that tag cut out, trimmed; any cue is well formed |
| Lrc.ParseLineWithTagAt | frontend/src/components/music/lrc.js:10-19 | wherever the first tag sits, the cue is at its time and its text is what comes before and after it, joined and trimmed; no cue when that trims to nothing |
| Lrc.ParseLrc | frontend/src/components/music/lrc.js:2-23 | empty input gives no cues; there are at most as many cues as lines; every cue has non-empty trimmed text and a time of at most 99:99.999 |
| Lrc.ParseLrcCues | frontend/src/components/music/lrc.js:4-21 | every cue of a text is the cue of one of its lines, and every line that gives a cue has it among the text's cues |
| Lrc.ParseLrcIsParseLines | frontend/src/components/music/lrc.js:3-4 | the early return for empty input agrees with parsing its one empty line |
| Lrc.ParseLrcOfConcat | frontend/src/components/music/lrc.js:9-21 | cues keep input order: the cues of `a + "\n" + b` are the cues of `a` followed by those of `b` |
| Lrc.ParseLrcOfSingleLine | frontend/src/components/music/lrc.js:9-11 | text without a newline gives at most the cue of that one line |
| Lrc.NoTagNoCue | frontend/src/components/music/lrc.js:11 | text none of whose lines has a tag gives no cues |
| Lrc.ParseFormattedLine | frontend/src/components/music/lrc.js:12-18 | a tag followed by trimmed text parses to the tag's time in milliseconds and that text |
| Lrc.ParseSingleEntry | frontend/src/components/music/lrc.js:2-23 | one written lyric line parses to exactly its cue |
| Lrc.ParseFormattedLyrics | portfolio-generator/src/components/Preview.jsx:118-139 | lyrics written out line by line parse back to the same cues, in the same order |
| LrcExamples.NoBracketNoCue | frontend/src/components/music/lrc.js:10-11 | a line without `[` has no tag and gives no cue |
| LrcExamples.HundredthsExample | frontend/src/components/music/lrc.js:16-17 | `[01:02.50]Hello` is one cue at 62500 ms |
| LrcExamples.ThousandthsExample | frontend/src/components/music/lrc.js:16-17 | `[00:10.250]World` is one cue at 10250 ms |
| LrcExamples.FirstTagOnlyExample | frontend/src/components/music/lrc.js:18 | only the first tag is cut: `[00:01.00][00:05.00]x` is at 1 s with text `[00:05.00]x` |
| LrcExamples.UncheckedSecondsExample | frontend/src/components/music/lrc.js:7 | seconds are not range-checked: `[00:99.00]a` is at 99 s |
| LrcExamples.TagInsideLine | frontend/src/components/music/lrc.js:10-19 | a tag after untagged text: the cue is at the tag's time and reads the text on both sides of it, joined |
| LrcExamples.MidLineTagExample | frontend/src/components/music/lrc.js:10-19 | `ab[00:01.00]cd` is one cue at 1 s reading `abcd` |
| LrcExamples.FourDigitFractionExample | frontend/src/components/music/lrc.js:7 | a four-digit fraction is not a tag, so `[00:01.1234]x` gives nothing |
| LrcExamples.CrlfLine | frontend/src/components/music/lrc.js:18 | a trailing carriage return from CRLF input is trimmed away |
| LrcExamples.BlankText | frontend/src/components/music/lrc.js:19 | a tag followed only by whitespace gives no cue |
| LrcExamples.BlankAndUntaggedExample | frontend/src/components/music/lrc.js:9-21 | a blank tagged line, an untagged line and a trailing empty line give no cues |
| LyricResolver.FindActiveFrom | portfolio-generator/src/components/music/MusicPlayer.jsx:72-75 | the scan from `k` returns the first active cue at or after `k`, or -1 when there is none |
| LyricResolver.ActiveIndex | portfolio-generator/src/components/music/MusicPlayer.jsx:72-75 | -1 exactly when no cue is active; otherwise an active cue (started, next not started) with no active cue before it |
| LyricResolver.BeforeFirstCue | portfolio-generator/src/components/music/MusicPlayer.jsx:74 | on an ordered timeline, before the first cue nothing is active |
| LyricResolver.AtOrAfterLastCue | portfolio-generator/src/components/music/MusicPlayer.jsx:74 | on a strictly increasing timeline, from the last cue's time on the last cue is active |
| LyricResolver.ActiveIsUnique | portfolio-generator/src/components/music/MusicPlayer.jsx:72-75 | on an ordered timeline any active cue is the one found |
| LyricResolver.SomeCueActive | portfolio-generator/src/components/music/MusicPlayer.jsx:72-75 | on an ordered timeline, once the first cue has started some cue is always found |
| LyricResolver.SharedTimeLaterWins | portfolio-generator/src/components/music/MusicPlayer.jsx:74 | of two cues with the same time, the earlier is never found |
| LyricResolver.ActiveIndexMonotone | portfolio-generator/src/components/Preview.jsx:213-216 | on an ordered timeline the found line never moves back as time advances |
| LyricResolver.ResolverExample | portfolio-generator/src/components/Preview.jsx:213-216 | cues at 0, 5 and 10 s: at 7 s the middle one is found |
| AudioUtils.SecureUrl | portfolio-generator/src/components/music/audioUtils.js:2-5 | empty gives empty; a leading `http://` in any case becomes `https://` plus the rest, one character longer; anything else is unchanged; the result never starts with `http://` |
| AudioUtils.SecureUrlIdempotent | portfolio-generator/src/components/music/audioUtils.js:4 | securing twice is securing once |
| AudioUtils.SecureUrlKeepsRest | portfolio-generator/src/components/music/audioUtils.js:4 | only the scheme is rewritten; everything after it, including a later `http://`, is carried over |
| AudioUtils.SecureUrlExamples | portfolio-generator/src/components/Preview.jsx:142-145 | `HTTP://a/http://b`, an `https` link, a relative path and "" are handled as the pattern says |
| Playlist.PlaylistOrDefault | portfolio-generator/src/components/Preview.jsx:462 | with no playlist supplied the thirteen default tracks are used; a supplied one, even empty, is used as is |
| Playlist.FirstTrackLrcAsWritten | portfolio-generator/src/components/Preview.jsx:25-29 | the first default track's lyrics text is the source's five literal lines joined by newlines |
| Playlist.FirstTrackLrcParses | portfolio-generator/src/components/Preview.jsx:25-29 | the first default track's lyrics parse back to its five written lines |
| Playlist.FirstTrackLyrics | portfolio-generator/src/components/Preview.jsx:25-29 | the first default track has five cues, at 0, 1, 5, 10 and 15 s, the first reading `作词 : MIMI` |
| Playlist.OtherTracksHaveNoLyrics | portfolio-generator/src/components/Preview.jsx:31-115 | every other default track has `lrc: ""` and so an empty timeline |
| MusicPlayer.NextIndexIsModular | portfolio-generator/src/components/music/MusicPlayer.jsx:43 | the wrap-around next index is `(i + 1) % n` |
| MusicPlayer.PrevIndexIsModular | portfolio-generator/src/components/music/MusicPlayer.jsx:49 | the wrap-around previous index is `(i - 1 + n) % n` |
| MusicPlayer.Mount | portfolio-generator/src/components/music/MusicPlayer.jsx:8-24 | an empty playlist has no player. Otherwise the player starts paused on track 0: lyrics hidden, line 0, no error, no timers, and track 0's cues, in a valid state |
| MusicPlayer.SelectTrack | portfolio-generator/src/components/music/MusicPlayer.jsx:20-24 | a real index change re-parses the new track's lyrics, resets the line to 0 and clears the error; the same index changes nothing |
| MusicPlayer.PlayNext | portfolio-generator/src/components/music/MusicPlayer.jsx:42-46 | the next index with wrap-around, playing, the state still valid; when the index moved, the new track's parsed lyrics, line 0 and no error; when it did not, only playing changes |
| MusicPlayer.PlayPrev | portfolio-generator/src/components/music/MusicPlayer.jsx:48-52 | the previous index with wrap-around, playing, the state still valid; when the index moved, the new track's parsed lyrics, line 0 and no error; when it did not, only playing changes |
| MusicPlayer.TogglePlay | portfolio-generator/src/components/music/MusicPlayer.jsx:26-40 | with an audio element, playing flips; without one, nothing changes; nothing else changes either way |
| MusicPlayer.ToggleLyrics | portfolio-generator/src/components/music/MusicPlayer.jsx:122 | lyrics visibility flips and nothing else changes |
| MusicPlayer.TimeUpdate | portfolio-generator/src/components/music/MusicPlayer.jsx:64-79 | only the highlighted line can change. It changes only to the resolver's hit with lyrics shown. It is unchanged when lyrics are hidden, absent or not found |
| MusicPlayer.AudioError | portfolio-generator/src/components/music/MusicPlayer.jsx:55-62 | the error flag is raised and exactly one advance, to the track after the current one, is queued; nothing else changes |
| MusicPlayer.TimerFires | portfolio-generator/src/components/music/MusicPlayer.jsx:59-61 | the oldest timer is consumed, selects the index it captured, whatever is current, and plays. When that moves the index, the new track's parsed lyrics, line 0 and no error; when it does not, nothing else changes and an error flag stays raised |
| MusicPlayer.Step | portfolio-generator/src/components/music/MusicPlayer.jsx:97-105 | every event keeps the state valid and is wired to its handler: `Next` and `Ended` go to the next track and play, `Prev` to the previous one, the play and lyrics buttons flip their flags, a time update highlights the resolved line when lyrics are shown, a load error raises the flag and queues the next index, and a timer firing selects its queued index; each event's result is exactly its handler's, so the handlers' frames hold per event, and a track change by `Next`, `Prev`, `Ended` or a timer loads the new lyrics, returns to line 0 and clears the error; events other than an error or a timer firing never touch the pending timers |
| MusicPlayer.EndedIsNext | portfolio-generator/src/components/music/MusicPlayer.jsx:102 | a track playing to its end does exactly what the skip-forward button does |
| MusicPlayer.Run | portfolio-generator/src/components/Preview.jsx:148-231 | any sequence of events from a valid state ends in a valid state with the same playlist |
| MusicPlayer.StepKeepsLyricsInSync | portfolio-generator/src/components/music/MusicPlayer.jsx:20-24 | after any single event, the lyric lines held are those parsed from the current track |
| MusicPlayer.RunKeepsLyricsInSync | portfolio-generator/src/components/Preview.jsx:160-164 | after any run of events, the lyric lines held are still those parsed from the current track |
| MusicPlayer.MountedLyricsStayInSync | portfolio-generator/src/components/music/MusicPlayer.jsx:18-24 | from mount on, after any events at all, the lyric lines held are the current track's parsed lyrics |
| MusicPlayer.NextWrapsToFirst | portfolio-generator/src/components/music/MusicPlayer.jsx:43 | `playNext` from the last track goes to track 0 |
| MusicPlayer.PrevWrapsToLast | portfolio-generator/src/components/music/MusicPlayer.jsx:49 | `playPrev` from track 0 goes to the last track |
| MusicPlayer.PrevUndoesNext | portfolio-generator/src/components/music/MusicPlayer.jsx:42-52 | `playPrev` after `playNext` is back on the same track and playing. With lyrics in step with the track, it shows the same lyrics |
| MusicPlayer.NextUndoesPrev | portfolio-generator/src/components/Preview.jsx:183-193 | `playNext` after `playPrev` is back on the same track |
| MusicPlayer.TogglesUndoThemselves | portfolio-generator/src/components/Preview.jsx:166-181 | pressing play/pause or the lyrics button twice restores the state |
| MusicPlayer.ErrorThenTimerIsPlayNext | portfolio-generator/src/components/music/MusicPlayer.jsx:55-62 | with two or more tracks, an error followed by its timer ends exactly where `playNext` would |
| MusicPlayer.SingleTrackErrorPersists | portfolio-generator/src/components/music/MusicPlayer.jsx:20-24 | with one track, the advance after an error stays on the same track and the error flag stays raised |
| MusicPlayer.OrdinaryEventsKeepTimers | portfolio-generator/src/components/music/MusicPlayer.jsx:59-61 | no run of events other than an error or a timer firing (buttons, time updates, track ends) cancels or changes a pending advance |
| MusicPlayer.StaleAdvance | portfolio-generator/src/components/Preview.jsx:196-203 | after an error on track `i` and any run of events other than an error or a timer firing, the timer still selects track `i + 1` with wrap-around |
| MusicPlayer.RecoveryFromFirstTrack | portfolio-generator/src/components/music/MusicPlayer.jsx:55-62 | when the first track fails to load, the timer moves to track 1. It then plays with track 1's lyrics, line 0, and no error shown |
| MusicPlayer.HighlightMovesForward | portfolio-generator/src/components/Preview.jsx:212-217 | with lyrics shown on an ordered timeline, the highlight never moves back as playback advances |
| MusicPlayer.DefaultPlaylistMounts | portfolio-generator/src/components/Preview.jsx:148 | with no playlist supplied the player mounts on thirteen tracks |
| Server.Backtrack | backend/server.js:31 | the regex engine's retry of `\s+` with fewer characters finds the longest working run, or none |
| Server.BearerToken | backend/server.js:30-33 | no token exactly when the pattern cannot match. Otherwise the token is what follows the longest whitespace run that still leaves a non-empty, single-line rest |
| Server.TokenAfterBearer | backend/server.js:31-33 | `"Bearer " + tok` yields `tok` for a single-line `tok` that does not start with whitespace |
| Server.TokenAfterAnyScheme | backend/server.js:31 | "Bearer" in any letter case, and any whitespace run after it, give the same token |
| Server.NoSchemeNoToken | backend/server.js:31-32 | a header not starting with the scheme has no token |
| Server.BlankTokenExample | backend/server.js:31-33 | `"Bearer  "` backtracks to the token `" "`, and `"Bearer "` has no token |
| Server.Authenticate | backend/server.js:28-40 | 401 "Missing token" exactly when no token is found. 401 "Invalid token" exactly when the token does not verify. Otherwise the request passes with the verified user id |
| Server.NoHeaderMissingToken | backend/server.js:30-32 | a request without the header gets 401 "Missing token" |
| Server.EmailOkIff | backend/server.js:53 | the check passes exactly for one `@` after a non-empty local part, then a `.` with text on both sides, and no other `@` or whitespace |
| Server.EmailOfParts | backend/server.js:53 | `local@name.suffix` passes when all three parts are non-empty and free of `@` and whitespace; the name may itself hold dots |
| Server.EmailRefusesWhitespace | backend/server.js:53 | an address containing whitespace fails |
| Server.EmailNeedsDot | backend/server.js:53 | an address without a `.` fails |
| Server.EmailRefusesSecondAt | backend/server.js:53 | an address with two `@` fails |
| Server.Register | backend/server.js:45-77 | 400 "required" exactly when a field is missing or empty. 400 email error exactly when all fields are present and the email fails. Otherwise 201 with a token and username on insert, 409 "already exists" on a duplicate, 500 "server error" on any other failure |
| Server.MissingFieldBeforeEmail | backend/server.js:48-57 | a missing username or password is reported as such, whatever the email |
| Server.Login | backend/server.js:80-110 | 400 when a field is missing or empty. 500 when the query fails. Otherwise one 401 message for an unknown user or a wrong password, and a matching password always succeeds, with the signed id and the stored username, or the request name when the stored one is empty |
| Server.UnknownUserLooksLikeWrongPassword | backend/server.js:93-101 | an unknown user and a wrong password get identical responses |
| Server.ConfigGet | backend/server.js:113-125 | authentication failures pass through. Otherwise: no stored row gives `{config: null}`, a stored row gives its data, and a failed query gives 500 |
| Server.ConfigPost | backend/server.js:128-147 | authentication failures pass through. Otherwise: a missing or null config gives 400, a successful save gives "saved", and a failed save gives 500 |
| Server.EmptyConfigIsSaved | backend/server.js:132-133 | a falsy configuration, the JSON empty string, is saved; only a missing or null one is refused |

## Left out

- **Floating-point time.** Times are integer milliseconds, in the cues and in `audio.currentTime`, so the float rounding of `msVal / 1000` is not modelled. Neither is progress-percent or click-to-seek arithmetic. The resolver's comparisons are exact on whole milliseconds.
- **The audio element.** Not modelled: the `<audio>` element, its `play()`/`pause()` promises, and the 100 ms autoplay effect (MusicPlayer.jsx:82-90). Whether an audio element exists is a parameter of `TogglePlay`. Playback position is a parameter of `TimeUpdate`.
- **Timer scheduling.** Each error-recovery timer is a queued index that a `Fire` event runs, oldest first. The one-second delay itself, and how timers interleave with other events in wall-clock time, are left to whoever chooses the event sequence.
- **Rendering and styling.** JSX, CSS, the particle layout and the icon map are presentation only. `DEFAULT_PLAYLIST` in the split component comes from `./playlist`, which is not part of this model. The inline copy in `Preview.jsx` is modelled.
- **Mount on an empty playlist.** An empty supplied playlist crashes the render (`playlist[0]` is undefined). The model gives no player (`Mount` returns None) rather than modelling the exception.
- **Storage, hashing and tokens.** Express routing, the MySQL queries, bcrypt and jsonwebtoken are inputs to the handlers. Each is a lookup outcome, a comparison function, a signing function or a save result. Exceptions thrown by bcrypt or `jwt.sign` outside those outcomes are not modelled.
- **Non-string body fields.** Register and login fields are optional strings, so a number or object sent as a field is not modelled. The config is its JSON text, with `null` as None.
- **Frontend support code.** `frontend/src/utils/api.js` (axios interceptors, `localStorage`) and `frontend/src/pages/Login.jsx` (form UI) are side effects and UI only. The login form posts `email`, but the server reads `username`; the server is modelled as written.
- **Characters.** Strings are sequences of Unicode scalar values. JavaScript's UTF-16 code units differ only for characters outside the Basic Multilingual Plane, and none of the patterns here treats those specially.
- **Playlist prop changes.** The playlist is fixed for the life of a mounted player (`Run` keeps it). A new `playlist` prop, which also re-runs the track-change effect through `currentSong` and can leave `currentIndex` out of range for a shorter list, is not modelled.
- MusicPlayer.TimerFires: does not model a `Fire` with no timer pending. `Step` treats that impossible event as doing nothing.

=== FILE: audio_utils.dfy ===
/** `secureUrl`: upgrade a cover-image link from `http://` to `https://`. */
module AudioUtils {
  import opened JsText

  /** The anchored, case-insensitive `^http:\/\/` test. */
  predicate HasHttpPrefix(url: string) {
    StartsWithIgnoringCase(url, "http://")
  }

  /**
   * `secureUrl`: an empty (or absent) link becomes "", a link starting with
   * `http://` in any letter case has that prefix alone replaced by
   * `https://`, and every other link is returned as it is.
   */
  function SecureUrl(url: string): (r: string)
    ensures url == [] ==> r == []
    ensures HasHttpPrefix(url) ==> r == "https://" + url[7..] && |r| == |url| + 1
    ensures !HasHttpPrefix(url) ==> r == url
    ensures !HasHttpPrefix(r)
  {
    if url == [] then []
    else if HasHttpPrefix(url) then
      var secured := "https://" + url[7..];
      assert AsciiLower(secured[4]) != "http://"[4];
      secured
    else url
  }

  /** Securing twice is securing once. */
  lemma SecureUrlIdempotent(url: string)
    ensures SecureUrl(SecureUrl(url)) == SecureUrl(url)
  {
  }

  /**
   * Only the leading scheme is touched: whatever follows the first seven
   * characters, including a later `http://`, is carried over unchanged.
   */
  lemma SecureUrlKeepsRest(url: string)
    requires HasHttpPrefix(url)
    ensures SecureUrl(url)[8..] == url[7..]
    ensures |SecureUrl(url)| == |url| + 1
  {
  }

  /** The scheme is matched in any letter case; a later `http://` is not touched. */
  lemma UpgradeExample()
    ensures SecureUrl("HTTP://a/http://b") == "https://a/http://b"
  {
    assert HasHttpPrefix("HTTP://a/http://b");
    assert "HTTP://a/http://b"[7..] == "a/http://b";
  }

  lemma HttpsExample()
    ensures SecureUrl("https://p1.music.126.net/x.jpg") == "https://p1.music.126.net/x.jpg"
  {
    assert "https://p1.music.126.net/x.jpg"[4] == 's';
  }

  /** Links that already use `https://`, and relative paths, are left alone. */
  lemma SecureUrlExamples()
    ensures SecureUrl("HTTP://a/http://b") == "https://a/http://b"
    ensures SecureUrl("https://p1.music.126.net/x.jpg") == "https://p1.music.126.net/x.jpg"
    ensures SecureUrl("/img/cover.jpg") == "/img/cover.jpg"
    ensures SecureUrl("") == ""
  {
    UpgradeExample();
    HttpsExample();
    assert "/img/cover.jpg"[0] == '/';
  }
}

=== FILE: jstext.dfy ===
/**
 * The few pieces of JavaScript's string library the rest of the model leans on:
 * the `\s` character class, `String.prototype.trim`, `split("\n")` and the
 * ASCII case folding of a regular expression's `i` flag.
 *
 * JavaScript strings are UTF-16; a Dafny `char` is a Unicode scalar value.
 * The two agree on every character outside the supplementary planes.
 */
module JsText {

  /** An ECMAScript LineTerminator: what `.` in a regular expression refuses to match. */
  predicate IsLineTerminator(c: char) {
    c == '\n' || c == '\r' || c == '\U{2028}' || c == '\U{2029}'
  }

  /**
   * An ECMAScript WhiteSpace or LineTerminator: what `\s` matches and what
   * `trim` strips (tab, vertical tab, form feed, the space separators of
   * Unicode category Zs, the byte order mark, and the line terminators).
   */
  predicate IsSpace(c: char) {
    || c == '\t' || c == '\U{B}' || c == '\U{C}' || c == ' '
    || c == '\U{A0}' || c == '\U{FEFF}' || c == '\U{1680}'
    || ('\U{2000}' <= c <= '\U{200A}')
    || c == '\U{202F}' || c == '\U{205F}' || c == '\U{3000}'
    || IsLineTerminator(c)
  }

  predicate AllSpace(s: string) {
    forall i :: 0 <= i < |s| ==> IsSpace(s[i])
  }

  /** Neither end of `s` is whitespace: `s` is its own trim. */
  predicate Trimmed(s: string) {
    s == [] || (!IsSpace(s[0]) && !IsSpace(s[|s| - 1]))
  }

  /** `trimStart`: the suffix left once the leading whitespace is gone. */
  function TrimStart(s: string): (r: string)
    ensures |r| <= |s| && r == s[|s| - |r|..]
    ensures AllSpace(s[..|s| - |r|])
    ensures r == [] || !IsSpace(r[0])
  {
    if s != [] && IsSpace(s[0]) then
      var r := TrimStart(s[1..]);
      TrimStartStep(s, r);
      r
    else s
  }

  /** Dropping one more leading space keeps `r` a suffix with only spaces before it. */
  lemma TrimStartStep(s: string, r: string)
    requires s != [] && IsSpace(s[0]) && |r| <= |s| - 1
    requires r == s[1..][|s| - 1 - |r|..] && AllSpace(s[1..][..|s| - 1 - |r|])
    ensures r == s[|s| - |r|..] && AllSpace(s[..|s| - |r|])
  {
    var k := |s| - 1 - |r|;
    assert s[1..][k..] == s[k + 1..];
    forall i | 0 < i < k + 1 ensures IsSpace(s[i]) {
      assert s[i] == s[1..][..k][i - 1];
    }
  }

  /** `trimEnd`: the prefix left once the trailing whitespace is gone. */
  function TrimEnd(s: string): (r: string)
    ensures |r| <= |s| && r == s[..|r|]
    ensures AllSpace(s[|r|..])
    ensures r == [] || !IsSpace(r[|r| - 1])
  {
    if s != [] && IsSpace(s[|s| - 1]) then TrimEnd(s[..|s| - 1]) else s
  }

  /** `String.prototype.trim`. */
  function Trim(s: string): (r: string)
    ensures Trimmed(r)
    ensures |r| <= |s|
  {
    TrimEnd(TrimStart(s))
  }

  lemma {:induction false} TrimStartOfPadded(p: string, m: string)
    requires AllSpace(p)
    requires m == [] || !IsSpace(m[0])
    ensures TrimStart(p + m) == m
    decreases |p|
  {
    if p != [] {
      assert (p + m)[1..] == p[1..] + m;
      TrimStartOfPadded(p[1..], m);
    } else {
      assert p + m == m;
    }
  }

  lemma {:induction false} TrimEndOfPadded(m: string, q: string)
    requires AllSpace(q)
    requires m == [] || !IsSpace(m[|m| - 1])
    ensures TrimEnd(m + q) == m
    decreases |q|
  {
    if q != [] {
      assert (m + q)[..|m + q| - 1] == m + q[..|q| - 1];
      TrimEndOfPadded(m, q[..|q| - 1]);
    } else {
      assert m + q == m;
    }
  }

  /**
   * `trim` strips exactly the surrounding whitespace: a string made of
   * whitespace, then a trimmed core, then whitespace, trims to that core.
   */
  lemma TrimCharacterization(p: string, m: string, q: string)
    requires AllSpace(p) && AllSpace(q) && Trimmed(m)
    ensures Trim(p + m + q) == m
  {
    if m == [] {
      assert p + m + q == p + q;
      assert AllSpace(p + q);
      AllSpaceTrimsToEmpty(p + q);
    } else {
      assert p + m + q == p + (m + q);
      TrimStartOfPadded(p, m + q);
      TrimEndOfPadded(m, q);
    }
  }

  lemma AllSpaceTrimsToEmpty(s: string)
    requires AllSpace(s)
    ensures Trim(s) == []
  {
    TrimStartOfPadded(s, []);
    assert s + [] == s;
  }

  /** A string with no whitespace at either end is its own trim. */
  lemma TrimmedIsOwnTrim(m: string)
    requires Trimmed(m)
    ensures Trim(m) == m
  {
    assert [] + m == m;
    TrimStartOfPadded([], m);
    assert m + [] == m;
    TrimEndOfPadded(m, []);
  }

  /** Only trailing whitespace after a trimmed string: the trim drops exactly that. */
  lemma TrimDropsTrailing(m: string, q: string)
    requires Trimmed(m) && AllSpace(q)
    ensures Trim(m + q) == m
  {
    if m == [] {
      assert m + q == q;
      AllSpaceTrimsToEmpty(q);
    } else {
      assert [] + (m + q) == m + q;
      TrimStartOfPadded([], m + q);
      TrimEndOfPadded(m, q);
    }
  }

  /** `trim` is idempotent. */
  lemma TrimIdempotent(s: string)
    ensures Trim(Trim(s)) == Trim(s)
  {
    TrimmedIsOwnTrim(Trim(s));
  }

  function NewlineCount(s: string): nat {
    if s == [] then 0 else (if s[0] == '\n' then 1 else 0) + NewlineCount(s[1..])
  }

  /** `s.split("\n")`: the pieces between newline characters, in order. */
  function Lines(s: string): (ls: seq<string>)
    ensures |ls| == NewlineCount(s) + 1
    ensures forall i :: 0 <= i < |ls| ==> '\n' !in ls[i]
  {
    if s == [] then [[]]
    else
      var rest := Lines(s[1..]);
      if s[0] == '\n' then [[]] + rest
      else [[s[0]] + rest[0]] + rest[1..]
  }

  /** `ls.join("\n")`. */
  function JoinLines(ls: seq<string>): string
    requires |ls| > 0
  {
    if |ls| == 1 then ls[0] else ls[0] + "\n" + JoinLines(ls[1..])
  }

  /** Joining a line in front of at least one more line puts a newline between them. */
  lemma JoinLinesCons(x: string, ys: seq<string>)
    requires |ys| > 0
    ensures JoinLines([x] + ys) == x + "\n" + JoinLines(ys)
  {
    assert ([x] + ys)[1..] == ys;
  }

  /** Splitting and joining again gives back the text. */
  lemma {:induction false} JoinLinesOfLines(s: string)
    ensures JoinLines(Lines(s)) == s
  {
    if s != [] {
      JoinLinesOfLines(s[1..]);
      var rest := Lines(s[1..]);
      if s[0] == '\n' {
        assert Lines(s)[1..] == rest;
        assert s == "\n" + s[1..];
      } else if |rest| == 1 {
        assert s == [s[0]] + s[1..];
      } else {
        assert Lines(s)[1..] == rest[1..];
        assert s == [s[0]] + s[1..];
      }
    }
  }

  /** Text with no newline is a single line. */
  lemma {:induction false} LinesOfSingleLine(s: string)
    requires '\n' !in s
    ensures Lines(s) == [s]
  {
    if s != [] {
      assert '\n' !in s[1..];
      LinesOfSingleLine(s[1..]);
      assert s == [s[0]] + s[1..];
    }
  }

  /** The lines of `a + "\n" + b` are the lines of `a` followed by those of `b`. */
  lemma {:induction false} LinesOfConcat(a: string, b: string)
    ensures Lines(a + "\n" + b) == Lines(a) + Lines(b)
    decreases |a|
  {
    var s := a + "\n" + b;
    if a == [] {
      assert s[1..] == b;
    } else {
      assert s[1..] == a[1..] + "\n" + b;
      LinesOfConcat(a[1..], b);
    }
  }

  /** Joining newline-free pieces and splitting again gives back the pieces. */
  lemma {:induction false} LinesOfJoinLines(ls: seq<string>)
    requires |ls| > 0
    requires forall i :: 0 <= i < |ls| ==> '\n' !in ls[i]
    ensures Lines(JoinLines(ls)) == ls
  {
    LinesOfSingleLine(ls[0]);
    if |ls| > 1 {
      LinesOfJoinLines(ls[1..]);
      LinesOfConcat(ls[0], JoinLines(ls[1..]));
    }
  }

  /** ASCII lower-casing of one character. */
  function AsciiLower(c: char): char {
    if 'A' <= c <= 'Z' then (c as int + 32) as char else c
  }

  /**
   * `s` begins with the lower-case pattern `p` under a regular expression's
   * `i` flag. Without the `u` flag JavaScript folds case by upper-casing and
   * never folds a non-ASCII character onto an ASCII one, so for an ASCII
   * pattern this is ASCII case folding.
   */
  predicate StartsWithIgnoringCase(s: string, p: string) {
    |p| <= |s| && forall i :: 0 <= i < |p| ==> AsciiLower(s[i]) == p[i]
  }
}

=== FILE: lrc.dfy ===
/**
 * The LRC lyric parser: LRC text in, an ordered list of timed cues out.
 *
 * Each newline-separated line is searched for its leftmost `[mm:ss.ff]` or
 * `[mm:ss.fff]` tag; the cue's time is the tag's time in milliseconds and its
 * text is the line with that one tag cut out, then trimmed. Lines without a
 * tag, and lines whose text trims to nothing, give no cue. There is no
 * sorting and no error path.
 */
module Lrc {
  import opened Wrappers
  import opened JsText

  /** The latest time a tag can spell, `[99:99.999]`, in milliseconds. */
  const MaxCueTime: nat := 99 * 60000 + 99 * 1000 + 999

  /** One parsed lyric line: when it starts, in milliseconds, and what it says. */
  datatype Cue = Cue(timeMs: nat, text: string)

  /** What every cue the parser emits satisfies. */
  predicate WellFormedCue(c: Cue) {
    c.text != [] && Trimmed(c.text) && c.timeMs <= MaxCueTime
  }

  function Pow10(n: nat): nat {
    if n == 0 then 1 else 10 * Pow10(n - 1)
  }

  /**
   * A time tag: two-digit minutes and seconds and a two- or three-digit
   * fraction. Seconds are not limited to 59.
   */
  datatype Tag = Tag(minutes: nat, seconds: nat, fraction: nat, fractionDigits: nat) {

    predicate Valid() {
      && minutes < 100 && seconds < 100
      && (fractionDigits == 2 || fractionDigits == 3)
      && fraction < Pow10(fractionDigits)
    }

    /** Characters the tag occupies: `[`, 2, `:`, 2, `.`, the fraction, `]`. */
    function Length(): nat {
      fractionDigits + 8
    }

    /** Milliseconds: a two-digit fraction counts hundredths, a three-digit one thousandths. */
    function TimeMs(): nat {
      minutes * 60000 + seconds * 1000 + (if fractionDigits == 2 then fraction * 10 else fraction)
    }

    /** The tag as it is written in LRC text. */
    function Format(): string
      requires Valid()
    {
      "[" + Digits(minutes, 2) + ":" + Digits(seconds, 2) + "." + Digits(fraction, fractionDigits) + "]"
    }
  }

  /** `\d` without the `u` flag: an ASCII digit. */
  predicate IsDigit(c: char) {
    '0' <= c <= '9'
  }

  predicate AllDigits(s: string) {
    forall i :: 0 <= i < |s| ==> IsDigit(s[i])
  }

  function DigitChar(d: nat): char
    requires d < 10
  {
    ('0' as int + d) as char
  }

  /** `n` written in decimal with exactly `width` digits, zero-padded. */
  function Digits(n: nat, width: nat): (s: string)
    requires n < Pow10(width)
    ensures |s| == width && AllDigits(s)
  {
    if width == 0 then [] else Digits(n / 10, width - 1) + [DigitChar(n % 10)]
  }

  /** `parseInt` of a string of decimal digits. */
  function DigitsValue(s: string): (n: nat)
    requires AllDigits(s)
    ensures n < Pow10(|s|)
  {
    if s == [] then 0 else DigitsValue(s[..|s| - 1]) * 10 + (s[|s| - 1] as int - '0' as int)
  }

  lemma {:induction false} DigitsValueOfDigits(n: nat, width: nat)
    requires n < Pow10(width)
    ensures DigitsValue(Digits(n, width)) == n
  {
    if width > 0 {
      var s := Digits(n, width);
      assert s[..|s| - 1] == Digits(n / 10, width - 1);
      DigitsValueOfDigits(n / 10, width - 1);
    }
  }

  lemma {:induction false} DigitsOfDigitsValue(s: string)
    requires AllDigits(s)
    ensures Digits(DigitsValue(s), |s|) == s
  {
    if s != [] {
      var init := s[..|s| - 1];
      DigitsOfDigitsValue(init);
      var n := DigitsValue(s);
      assert n / 10 == DigitsValue(init);
      assert s == init + [s[|s| - 1]];
    }
  }

  /**
   * The regular expression `\[(\d{2}):(\d{2})\.(\d{2,3})\]` tried at position
   * `p` of `line`. The fraction is greedy: three digits when a `]` follows
   * them, otherwise two digits when a `]` follows those.
   */
  function TagAt(line: string, p: nat): (r: Option<Tag>)
    ensures r.Some? ==> r.value.Valid() && p + r.value.Length() <= |line|
  {
    if p + 10 <= |line| && line[p] == '[' && AllDigits(line[p + 1..p + 3]) && line[p + 3] == ':'
       && AllDigits(line[p + 4..p + 6]) && line[p + 6] == '.'
    then
      var mm := DigitsValue(line[p + 1..p + 3]);
      var ss := DigitsValue(line[p + 4..p + 6]);
      if p + 11 <= |line| && AllDigits(line[p + 7..p + 10]) && line[p + 10] == ']' then
        Some(Tag(mm, ss, DigitsValue(line[p + 7..p + 10]), 3))
      else if AllDigits(line[p + 7..p + 9]) && line[p + 9] == ']' then
        Some(Tag(mm, ss, DigitsValue(line[p + 7..p + 9]), 2))
      else
        None
    else
      None
  }

  /** The written form of a valid tag, piece by piece. */
  lemma FormatShape(t: Tag)
    requires t.Valid()
    ensures var f, d := t.Format(), t.fractionDigits;
      && |f| == t.Length()
      && f[0] == '[' && f[1..3] == Digits(t.minutes, 2) && f[3] == ':'
      && f[4..6] == Digits(t.seconds, 2) && f[6] == '.'
      && f[7..7 + d] == Digits(t.fraction, d) && f[7 + d] == ']'
  {
  }

  /** A string laid out piece by piece like a valid tag is that tag written out. */
  lemma FormatFromShape(w: string, t: Tag)
    requires t.Valid() && |w| == t.Length()
    requires w[0] == '[' && w[1..3] == Digits(t.minutes, 2) && w[3] == ':'
    requires w[4..6] == Digits(t.seconds, 2) && w[6] == '.'
    requires w[7..7 + t.fractionDigits] == Digits(t.fraction, t.fractionDigits)
    requires w[7 + t.fractionDigits] == ']'
    ensures w == t.Format()
  {
    var f := t.Format();
    FormatShape(t);
    forall i | 0 <= i < |w| ensures w[i] == f[i] {
      if 1 <= i < 3 {
        assert w[i] == w[1..3][i - 1];
        assert f[i] == f[1..3][i - 1];
      } else if 4 <= i < 6 {
        assert w[i] == w[4..6][i - 4];
        assert f[i] == f[4..6][i - 4];
      } else if 7 <= i < 7 + t.fractionDigits {
        assert w[i] == w[7..7 + t.fractionDigits][i - 7];
        assert f[i] == f[7..7 + t.fractionDigits][i - 7];
      }
    }
  }

  lemma SliceOfSlice(s: string, a: nat, b: nat, i: nat, j: nat)
    requires a <= b <= |s| && i <= j <= b - a
    ensures s[a..b][i..j] == s[a + i..a + j]
  {
    assert forall k :: 0 <= k < j - i ==> s[a..b][i..j][k] == s[a + i..a + j][k];
  }

  /** What a match found by the tag matcher reads: its pieces, character by character. */
  lemma TagAtParts(line: string, p: nat, t: Tag)
    requires TagAt(line, p) == Some(t)
    ensures var d := t.fractionDigits;
      && (d == 2 || d == 3) && p + 8 + d <= |line|
      && line[p] == '[' && line[p + 3] == ':' && line[p + 6] == '.' && line[p + 7 + d] == ']'
      && AllDigits(line[p + 1..p + 3]) && t.minutes == DigitsValue(line[p + 1..p + 3])
      && AllDigits(line[p + 4..p + 6]) && t.seconds == DigitsValue(line[p + 4..p + 6])
      && AllDigits(line[p + 7..p + 7 + d]) && t.fraction == DigitsValue(line[p + 7..p + 7 + d])
  {
  }

  lemma TagAtSound(line: string, p: nat, t: Tag)
    requires TagAt(line, p) == Some(t)
    ensures p + t.Length() <= |line| && line[p..p + t.Length()] == t.Format()
  {
    var d := t.fractionDigits;
    TagAtParts(line, p, t);
    DigitsOfDigitsValue(line[p + 1..p + 3]);
    DigitsOfDigitsValue(line[p + 4..p + 6]);
    DigitsOfDigitsValue(line[p + 7..p + 7 + d]);
    WrittenAt(line, p, t);
  }

  /** Characters laid out like tag `t` from position `p` are `t` written out. */
  lemma WrittenAt(line: string, p: nat, t: Tag)
    requires t.Valid() && p + t.Length() <= |line|
    requires var d := t.fractionDigits;
      && line[p] == '[' && line[p + 3] == ':' && line[p + 6] == '.' && line[p + 7 + d] == ']'
      && line[p + 1..p + 3] == Digits(t.minutes, 2)
      && line[p + 4..p + 6] == Digits(t.seconds, 2)
      && line[p + 7..p + 7 + d] == Digits(t.fraction, d)
    ensures line[p..p + t.Length()] == t.Format()
  {
    var d := t.fractionDigits;
    var w := line[p..p + t.Length()];
    SliceOfSlice(line, p, p + t.Length(), 1, 3);
    SliceOfSlice(line, p, p + t.Length(), 4, 6);
    SliceOfSlice(line, p, p + t.Length(), 7, 7 + d);
    FormatFromShape(w, t);
  }

  /** A position whose characters read like a tag is where the matcher finds that tag. */
  lemma TagAtOfParts(line: string, p: nat, t: Tag)
    requires var d := t.fractionDigits;
      && (d == 2 || d == 3) && p + 8 + d <= |line|
      && line[p] == '[' && line[p + 3] == ':' && line[p + 6] == '.' && line[p + 7 + d] == ']'
      && AllDigits(line[p + 1..p + 3]) && t.minutes == DigitsValue(line[p + 1..p + 3])
      && AllDigits(line[p + 4..p + 6]) && t.seconds == DigitsValue(line[p + 4..p + 6])
      && AllDigits(line[p + 7..p + 7 + d]) && t.fraction == DigitsValue(line[p + 7..p + 7 + d])
    ensures TagAt(line, p) == Some(t)
  {
    if t.fractionDigits == 2 {
      assert !IsDigit(line[p + 9]);
      assert !AllDigits(line[p + 7..p + 10]) by {
        if p + 10 <= |line| {
          assert line[p + 7..p + 10][2] == line[p + 9];
        }
      }
    }
  }

  lemma TagAtComplete(line: string, p: nat, t: Tag)
    requires t.Valid() && p + t.Length() <= |line| && line[p..p + t.Length()] == t.Format()
    ensures TagAt(line, p) == Some(t)
  {
    var d := t.fractionDigits;
    ReadAt(line, p, t);
    DigitsValueOfDigits(t.minutes, 2);
    DigitsValueOfDigits(t.seconds, 2);
    DigitsValueOfDigits(t.fraction, d);
    TagAtOfParts(line, p, t);
  }

  /** Where tag `t` is written out from position `p`, its pieces can be read off the line. */
  lemma ReadAt(line: string, p: nat, t: Tag)
    requires t.Valid() && p + t.Length() <= |line| && line[p..p + t.Length()] == t.Format()
    ensures var d := t.fractionDigits;
      && line[p] == '[' && line[p + 3] == ':' && line[p + 6] == '.' && line[p + 7 + d] == ']'
      && line[p + 1..p + 3] == Digits(t.minutes, 2)
      && line[p + 4..p + 6] == Digits(t.seconds, 2)
      && line[p + 7..p + 7 + d] == Digits(t.fraction, d)
  {
    var d := t.fractionDigits;
    var w := line[p..p + t.Length()];
    FormatShape(t);
    SliceOfSlice(line, p, p + t.Length(), 1, 3);
    SliceOfSlice(line, p, p + t.Length(), 4, 6);
    SliceOfSlice(line, p, p + t.Length(), 7, 7 + d);
    assert line[p] == w[0] && line[p + 3] == w[3] && line[p + 6] == w[6] && line[p + 7 + d] == w[7 + d];
  }

  /**
   * The tag matcher recognises exactly the written form of a valid tag: it
   * finds tag `t` at position `p` if and only if the text there is `t` written out.
   */
  lemma TagAtIff(line: string, p: nat, t: Tag)
    ensures TagAt(line, p) == Some(t)
        <==> t.Valid() && p + t.Length() <= |line| && line[p..p + t.Length()] == t.Format()
  {
    if TagAt(line, p) == Some(t) {
      TagAtSound(line, p, t);
    }
    if t.Valid() && p + t.Length() <= |line| && line[p..p + t.Length()] == t.Format() {
      TagAtComplete(line, p, t);
    }
  }

  /** Where the leftmost tag of a line starts, and the tag. */
  datatype TagMatch = TagMatch(pos: nat, tag: Tag)

  /** The line has a tag somewhere. */
  predicate HasTag(line: string) {
    exists p: nat :: p < |line| && TagAt(line, p).Some?
  }

  /** `exec` of the non-global tag expression from position `from`: the leftmost match. */
  function FindTag(line: string, from: nat): (r: Option<TagMatch>)
    ensures r.None? ==> forall p: nat :: from <= p ==> TagAt(line, p).None?
    ensures r.Some? ==> from <= r.value.pos && TagAt(line, r.value.pos) == Some(r.value.tag)
    ensures r.Some? ==> forall p: nat :: from <= p < r.value.pos ==> TagAt(line, p).None?
    decreases |line| - from
  {
    if |line| <= from then None
    else match TagAt(line, from)
      case Some(t) => Some(TagMatch(from, t))
      case None => FindTag(line, from + 1)
  }

  /** The line with the matched tag cut out (`replace` of the first match by ""). */
  function WithoutTag(line: string, m: TagMatch): string
    requires m.pos + m.tag.Length() <= |line|
  {
    line[..m.pos] + line[m.pos + m.tag.Length()..]
  }

  /** The latest a tag can point to is `[99:99.999]`. */
  lemma TimeWithinRange(t: Tag)
    requires t.Valid()
    ensures t.TimeMs() <= MaxCueTime
  {
    assert t.fraction < 1000;
  }

  /** `exec` from the start of a line finds a match exactly when the line has a tag. */
  lemma FindTagFindsAny(line: string)
    ensures FindTag(line, 0).Some? <==> HasTag(line)
  {
    var r := FindTag(line, 0);
    if r.Some? {
      assert r.value.pos < |line| && TagAt(line, r.value.pos).Some?;
    }
  }

  /** One line's cue, if it has a tag and some text besides. */
  function ParseLine(line: string): (r: Option<Cue>)
    ensures r.Some? ==> WellFormedCue(r.value)
    ensures r.Some? <==> HasTag(line) && Trim(WithoutTag(line, FindTag(line, 0).value)) != []
    ensures r.Some? ==> var m := FindTag(line, 0).value;
              r.value == Cue(m.tag.TimeMs(), Trim(WithoutTag(line, m)))
  {
    FindTagFindsAny(line);
    match FindTag(line, 0)
    case None => None
    case Some(m) =>
      TimeWithinRange(m.tag);
      var text := Trim(WithoutTag(line, m));
      if text == [] then None else Some(Cue(m.tag.TimeMs(), text))
  }

  /**
   * Where the line's first tag sits after some untagged prefix, the cue is at
   * that tag's time, and its text is the prefix and what follows the tag,
   * joined and trimmed.
   */
  lemma ParseLineWithTagAt(pre: string, t: Tag, post: string)
    requires t.Valid()
    requires forall p: nat :: p < |pre| ==> TagAt(pre + t.Format() + post, p).None?
    ensures ParseLine(pre + t.Format() + post)
         == if Trim(pre + post) == [] then None else Some(Cue(t.TimeMs(), Trim(pre + post)))
  {
    var line := pre + t.Format() + post;
    FormatShape(t);
    assert line[|pre|..|pre| + t.Length()] == t.Format();
    TagAtComplete(line, |pre|, t);
    var m := FindTag(line, 0).value;
    assert m == TagMatch(|pre|, t);
    assert line[..|pre|] == pre;
    assert line[|pre| + t.Length()..] == post;
  }

  function AsSeq(o: Option<Cue>): seq<Cue> {
    match o
    case None => []
    case Some(c) => [c]
  }

  /** The cues of a list of lines, in line order. */
  function ParseLines(ls: seq<string>): (cues: seq<Cue>)
    ensures |cues| <= |ls|
    ensures forall i :: 0 <= i < |cues| ==> WellFormedCue(cues[i])
  {
    if ls == [] then []
    else
      var head, rest := AsSeq(ParseLine(ls[0])), ParseLines(ls[1..]);
      WellFormedConcat(head, rest);
      head + rest
  }

  lemma WellFormedConcat(a: seq<Cue>, b: seq<Cue>)
    requires forall i :: 0 <= i < |a| ==> WellFormedCue(a[i])
    requires forall i :: 0 <= i < |b| ==> WellFormedCue(b[i])
    ensures forall i :: 0 <= i < |a + b| ==> WellFormedCue((a + b)[i])
  {
  }

  /** `parseLrc`: an empty input gives no cues; otherwise the cues of its lines. */
  function ParseLrc(lrc: string): (cues: seq<Cue>)
    ensures lrc == [] ==> cues == []
    ensures |cues| <= NewlineCount(lrc) + 1
    ensures forall i :: 0 <= i < |cues| ==> WellFormedCue(cues[i])
  {
    if lrc == [] then [] else ParseLines(Lines(lrc))
  }

  lemma {:induction false} ParseLinesOfConcat(a: seq<string>, b: seq<string>)
    ensures ParseLines(a + b) == ParseLines(a) + ParseLines(b)
  {
    if a != [] {
      assert (a + b)[1..] == a[1..] + b;
      ParseLinesOfConcat(a[1..], b);
    } else {
      assert a + b == b;
    }
  }

  /** Every text, empty or not, parses as the cues of its lines. */
  lemma ParseLrcIsParseLines(lrc: string)
    ensures ParseLrc(lrc) == ParseLines(Lines(lrc))
  {
    if lrc == [] {
      assert Lines(lrc) == [[]];
      assert FindTag([], 0).None?;
    }
  }

  /**
   * Cues keep input order: the cues of `a + "\n" + b` are the cues of `a`
   * followed by the cues of `b`, with nothing re-sorted.
   */
  lemma ParseLrcOfConcat(a: string, b: string)
    ensures ParseLrc(a + "\n" + b) == ParseLrc(a) + ParseLrc(b)
  {
    ParseLrcIsParseLines(a + "\n" + b);
    ParseLrcIsParseLines(a);
    ParseLrcIsParseLines(b);
    LinesOfConcat(a, b);
    ParseLinesOfConcat(Lines(a), Lines(b));
  }

  /** The present values of a list of optional cues, in order. */
  function Present(os: seq<Option<Cue>>): seq<Cue> {
    if os == [] then [] else AsSeq(os[0]) + Present(os[1..])
  }

  /** Each value present is one of the list's entries, and each entry's value is present. */
  lemma {:induction false} PresentMembers(os: seq<Option<Cue>>)
    ensures forall c :: c in Present(os) ==> Some(c) in os
    ensures forall o :: o in os && o.Some? ==> o.value in Present(os)
  {
    if os != [] {
      PresentMembers(os[1..]);
      assert os == [os[0]] + os[1..];
    }
  }

  /** Each line's outcome, in line order. */
  function LineOutcomes(ls: seq<string>): (os: seq<Option<Cue>>)
    ensures |os| == |ls|
    ensures forall j :: 0 <= j < |ls| ==> os[j] == ParseLine(ls[j])
  {
    if ls == [] then [] else [ParseLine(ls[0])] + LineOutcomes(ls[1..])
  }

  lemma {:induction false} ParseLinesIsPresent(ls: seq<string>)
    ensures ParseLines(ls) == Present(LineOutcomes(ls))
  {
    if ls != [] {
      ParseLinesIsPresent(ls[1..]);
      assert LineOutcomes(ls)[1..] == LineOutcomes(ls[1..]);
    }
  }

  /**
   * The cues of a text are the cues of its lines: each cue is the cue of
   * some line, and each line's cue is there.
   */
  lemma ParseLrcCues(lrc: string)
    ensures forall c :: c in ParseLrc(lrc) ==>
              exists j :: 0 <= j < |Lines(lrc)| && ParseLine(Lines(lrc)[j]) == Some(c)
    ensures forall j :: 0 <= j < |Lines(lrc)| && ParseLine(Lines(lrc)[j]).Some? ==>
              ParseLine(Lines(lrc)[j]).value in ParseLrc(lrc)
  {
    var ls := Lines(lrc);
    ParseLrcIsParseLines(lrc);
    ParseLinesIsPresent(ls);
    PresentMembers(LineOutcomes(ls));
    forall c | c in ParseLrc(lrc) ensures exists j :: 0 <= j < |ls| && ParseLine(ls[j]) == Some(c) {
      var j :| 0 <= j < |ls| && LineOutcomes(ls)[j] == Some(c);
    }
    forall j | 0 <= j < |ls| && ParseLine(ls[j]).Some? ensures ParseLine(ls[j]).value in ParseLrc(lrc) {
      assert LineOutcomes(ls)[j] in LineOutcomes(ls);
    }
  }

  /** A text without newlines is one line and gives at most that line's cue. */
  lemma ParseLrcOfSingleLine(line: string)
    requires '\n' !in line
    ensures ParseLrc(line) == AsSeq(ParseLine(line))
  {
    ParseLrcIsParseLines(line);
    LinesOfSingleLine(line);
    assert ParseLines([line]) == AsSeq(ParseLine(line)) + ParseLines([]);
  }

  /** A line yields a cue only if it carries a tag. */
  lemma NoTagNoCue(lrc: string)
    requires forall i :: 0 <= i < |Lines(lrc)| ==> !HasTag(Lines(lrc)[i])
    ensures ParseLrc(lrc) == []
  {
    ParseLrcIsParseLines(lrc);
    NoTagLinesNoCues(Lines(lrc));
  }

  lemma {:induction false} NoTagLinesNoCues(ls: seq<string>)
    requires forall i :: 0 <= i < |ls| ==> !HasTag(ls[i])
    ensures ParseLines(ls) == []
  {
    if ls != [] {
      NoTagLinesNoCues(ls[1..]);
    }
  }

  /** A lyric entry as written: a tag and the text after it. */
  datatype Entry = Entry(tag: Tag, text: string)

  predicate WritableEntry(e: Entry) {
    e.tag.Valid() && e.text != [] && Trimmed(e.text) && '\n' !in e.text
  }

  function FormatLine(e: Entry): string
    requires WritableEntry(e)
  {
    e.tag.Format() + e.text
  }

  function FormatLyrics(es: seq<Entry>): (ls: seq<string>)
    requires forall i :: 0 <= i < |es| ==> WritableEntry(es[i])
    ensures |ls| == |es|
    ensures forall i :: 0 <= i < |es| ==> ls[i] == FormatLine(es[i])
  {
    if es == [] then [] else [FormatLine(es[0])] + FormatLyrics(es[1..])
  }

  function ToCues(es: seq<Entry>): (cs: seq<Cue>)
    ensures |cs| == |es|
    ensures forall i :: 0 <= i < |es| ==> cs[i] == Cue(es[i].tag.TimeMs(), es[i].text)
  {
    if es == [] then [] else [Cue(es[0].tag.TimeMs(), es[0].text)] + ToCues(es[1..])
  }

  /** A line that starts with a tag: `exec` finds that tag at position 0. */
  lemma LeadingTag(t: Tag, rest: string)
    requires t.Valid()
    ensures FindTag(t.Format() + rest, 0) == Some(TagMatch(0, t))
  {
    var line := t.Format() + rest;
    FormatShape(t);
    assert line[0..t.Length()] == t.Format();
    TagAtComplete(line, 0, t);
  }

  /** Cutting a leading tag out of a line leaves what followed it. */
  lemma CutLeadingTag(t: Tag, rest: string)
    requires t.Valid()
    ensures |t.Format()| == t.Length()
    ensures WithoutTag(t.Format() + rest, TagMatch(0, t)) == rest
  {
    var line := t.Format() + rest;
    FormatShape(t);
    assert line[..0] == [];
    assert line[t.Length()..] == rest;
  }

  /** A line made of a tag and some text: a cue exactly when the text does not trim to nothing. */
  lemma ParseLineWithLeadingTag(t: Tag, rest: string)
    requires t.Valid()
    ensures ParseLine(t.Format() + rest)
         == if Trim(rest) == [] then None else Some(Cue(t.TimeMs(), Trim(rest)))
  {
    LeadingTag(t, rest);
    CutLeadingTag(t, rest);
  }

  /** A written line `tag + text` parses back to the tag's time and the text. */
  lemma ParseFormattedLine(e: Entry)
    requires WritableEntry(e)
    ensures ParseLine(FormatLine(e)) == Some(Cue(e.tag.TimeMs(), e.text))
  {
    ParseLineWithLeadingTag(e.tag, e.text);
    TrimmedIsOwnTrim(e.text);
  }

  /** A written tag spans no line break. */
  lemma FormatHasNoNewline(t: Tag)
    requires t.Valid()
    ensures '\n' !in t.Format()
  {
    var f := t.Format();
    FormatShape(t);
    forall i | 0 <= i < |f| ensures f[i] != '\n' {
      var d := t.fractionDigits;
      if 1 <= i < 3 {
        assert f[i] == f[1..3][i - 1];
      } else if 4 <= i < 6 {
        assert f[i] == f[4..6][i - 4];
      } else if 7 <= i < 7 + d {
        assert f[i] == f[7..7 + d][i - 7];
      }
    }
  }

  lemma FormattedLineHasNoNewline(e: Entry)
    requires WritableEntry(e)
    ensures '\n' !in FormatLine(e)
  {
    FormatHasNoNewline(e.tag);
  }

  /** A one-line LRC text, tag then text, parses to exactly that cue. */
  lemma ParseSingleEntry(e: Entry)
    requires WritableEntry(e)
    ensures ParseLrc(FormatLine(e)) == [Cue(e.tag.TimeMs(), e.text)]
  {
    FormattedLineHasNoNewline(e);
    ParseFormattedLine(e);
    ParseLrcOfSingleLine(FormatLine(e));
  }

  /** Lyrics written out line by line parse back to their cues, in order. */
  lemma {:induction false} ParseFormattedLyrics(es: seq<Entry>)
    requires |es| > 0
    requires forall i :: 0 <= i < |es| ==> WritableEntry(es[i])
    ensures ParseLrc(JoinLines(FormatLyrics(es))) == ToCues(es)
  {
    ParseSingleEntry(es[0]);
    if |es| > 1 {
      var rest := es[1..];
      ParseFormattedLyrics(rest);
      JoinFormattedLyrics(es);
      ParseLrcOfConcat(FormatLine(es[0]), JoinLines(FormatLyrics(rest)));
      assert ToCues(es) == ToCues([es[0]]) + ToCues(rest);
    }
  }

  /** Writing out several entries is the first line, a newline, and the rest written out. */
  lemma JoinFormattedLyrics(es: seq<Entry>)
    requires |es| > 1
    requires forall i :: 0 <= i < |es| ==> WritableEntry(es[i])
    ensures JoinLines(FormatLyrics(es)) == FormatLine(es[0]) + "\n" + JoinLines(FormatLyrics(es[1..]))
  {
    var rest := FormatLyrics(es[1..]);
    assert FormatLyrics(es) == [FormatLine(es[0])] + rest;
    JoinLinesCons(FormatLine(es[0]), rest);
  }
}

=== FILE: lrc_examples.dfy ===
/** Worked inputs for the LRC parser: each pins one rule of `parseLrc` to a concrete line. */
module LrcExamples {
  import opened Wrappers
  import opened JsText
  import opened Lrc

  /** A line with no `[` holds no tag, so it gives no cue. */
  lemma NoBracketNoCue(line: string)
    requires '[' !in line
    ensures !HasTag(line) && ParseLine(line) == None
  {
    forall p: nat | p < |line| ensures TagAt(line, p).None? {
      assert line[p] != '[';
    }
    FindTagFindsAny(line);
  }

  /** A tag written as `tag`, then a text, parse as one line to the tag's cue. */
  lemma WrittenExample(t: Tag, tag: string, text: string)
    requires t.Valid() && t.Format() == tag
    requires text != [] && Trimmed(text) && '\n' !in text
    ensures ParseLrc(tag + text) == [Cue(t.TimeMs(), text)]
  {
    ParseSingleEntry(Entry(t, text));
  }

  lemma HundredthsTag()
    ensures Tag(1, 2, 50, 2).Valid() && Tag(1, 2, 50, 2).Format() == "[01:02.50]"
  {
    assert Digits(50, 2) == "50";
  }

  /** A two-digit fraction counts hundredths: `[01:02.50]Hello` is at 62.5 s. */
  lemma HundredthsExample()
    ensures ParseLrc("[01:02.50]" + "Hello") == [Cue(62500, "Hello")]
  {
    HundredthsTag();
    WrittenExample(Tag(1, 2, 50, 2), "[01:02.50]", "Hello");
  }

  lemma ThousandthsTag()
    ensures Tag(0, 10, 250, 3).Valid() && Tag(0, 10, 250, 3).Format() == "[00:10.250]"
  {
    assert Digits(2, 1) == "2";
    assert Digits(25, 2) == "25";
    assert Digits(250, 3) == "250";
  }

  /** A three-digit fraction counts thousandths: `[00:10.250]World` is at 10.25 s. */
  lemma ThousandthsExample()
    ensures ParseLrc("[00:10.250]" + "World") == [Cue(10250, "World")]
  {
    ThousandthsTag();
    WrittenExample(Tag(0, 10, 250, 3), "[00:10.250]", "World");
  }

  lemma FirstTagOnlyTag()
    ensures Tag(0, 1, 0, 2).Valid() && Tag(0, 1, 0, 2).Format() == "[00:01.00]"
  {
  }

  /** Only the first tag is used; a second one stays in the text. */
  lemma FirstTagOnlyExample()
    ensures ParseLrc("[00:01.00]" + "[00:05.00]x") == [Cue(1000, "[00:05.00]x")]
  {
    FirstTagOnlyTag();
    WrittenExample(Tag(0, 1, 0, 2), "[00:01.00]", "[00:05.00]x");
  }

  lemma UncheckedSecondsTag()
    ensures Tag(0, 99, 0, 2).Valid() && Tag(0, 99, 0, 2).Format() == "[00:99.00]"
  {
  }

  /** Seconds are not range-checked: `[00:99.00]` is 99 s. */
  lemma UncheckedSecondsExample()
    ensures ParseLrc("[00:99.00]" + "a") == [Cue(99000, "a")]
  {
    UncheckedSecondsTag();
    WrittenExample(Tag(0, 99, 0, 2), "[00:99.00]", "a");
  }

  /**
   * The tag need not start the line: with untagged text on either side, the
   * cue is at the tag's time and its text is both sides joined.
   */
  lemma TagInsideLine(pre: string, t: Tag, post: string)
    requires t.Valid() && '[' !in pre && '\n' !in pre + post
    requires pre + post != [] && Trimmed(pre + post)
    ensures ParseLrc(pre + t.Format() + post) == [Cue(t.TimeMs(), pre + post)]
  {
    var line := pre + t.Format() + post;
    forall p: nat | p < |pre| ensures TagAt(line, p).None? {
      assert line[p] == pre[p];
    }
    ParseLineWithTagAt(pre, t, post);
    TrimmedIsOwnTrim(pre + post);
    assert '\n' !in line by {
      FormatHasNoNewline(t);
      assert forall c :: c in line ==> c in pre + post || c in t.Format();
    }
    ParseLrcOfSingleLine(line);
  }

  /** `ab[00:01.00]cd` is one cue at 1 s reading `abcd`. */
  lemma MidLineTagExample()
    ensures ParseLrc("ab" + "[00:01.00]" + "cd") == [Cue(1000, "abcd")]
  {
    FirstTagOnlyTag();
    assert "ab" + "cd" == "abcd";
    TagInsideLine("ab", Tag(0, 1, 0, 2), "cd");
  }

  /** A four-digit fraction is no tag, so the line gives nothing. */
  lemma FourDigitFractionExample()
    ensures ParseLrc("[00:01.1234]x") == []
  {
    var line := "[00:01.1234]x";
    assert TagAt(line, 0).None? by {
      assert line[10] == '4' && line[9] == '3';
    }
    forall p: nat | 0 < p < |line| ensures TagAt(line, p).None? {
      assert line[p] != '[';
    }
    assert !HasTag(line);
    ParseLrcOfSingleLine(line);
  }

  /** A CRLF line loses its carriage return to the trim. */
  lemma CrlfLine(e: Entry)
    requires WritableEntry(e)
    ensures ParseLrc(FormatLine(e) + "\r") == [Cue(e.tag.TimeMs(), e.text)]
  {
    var line := FormatLine(e) + "\r";
    assert line == e.tag.Format() + (e.text + "\r");
    assert AllSpace("\r");
    TrimDropsTrailing(e.text, "\r");
    ParseLineWithLeadingTag(e.tag, e.text + "\r");
    assert '\n' !in line by {
      FormattedLineHasNoNewline(e);
    }
    ParseLrcOfSingleLine(line);
  }

  /** A tag followed only by blanks gives no cue: the text trims to nothing. */
  lemma BlankText(t: Tag, pad: string)
    requires t.Valid() && AllSpace(pad) && '\n' !in pad
    ensures ParseLrc(t.Format() + pad) == []
  {
    ParseLineWithLeadingTag(t, pad);
    AllSpaceTrimsToEmpty(pad);
    FormatHasNoNewline(t);
    ParseLrcOfSingleLine(t.Format() + pad);
  }

  lemma NoCuesOfConcat(a: string, b: string)
    requires ParseLrc(a) == [] && ParseLrc(b) == []
    ensures ParseLrc(a + "\n" + b) == []
  {
    ParseLrcOfConcat(a, b);
  }

  lemma BlankLineExample()
    ensures ParseLrc("[00:01.00]" + "   ") == []
  {
    FirstTagOnlyTag();
    BlankText(Tag(0, 1, 0, 2), "   ");
  }

  lemma UntaggedLine()
    ensures ParseLrc("No tag here") == []
  {
    NoBracketNoCue("No tag here");
    ParseLrcOfSingleLine("No tag here");
  }

  /** A tag followed only by blanks, a line without a tag, and an empty last line give nothing. */
  lemma BlankAndUntaggedExample()
    ensures ParseLrc("[00:01.00]" + "   " + "\n" + ("No tag here" + "\n" + "")) == []
  {
    BlankLineExample();
    UntaggedLine();
    NoCuesOfConcat("No tag here", "");
    NoCuesOfConcat("[00:01.00]" + "   ", "No tag here" + "\n" + "");
  }
}

=== FILE: player.dfy ===
/**
 * The `MusicPlayer` component as a state machine: the React state it keeps,
 * each handler as a pure transition, and the track-change effect folded into
 * every transition that changes the current index.
 *
 * The one-second `setTimeout` that follows a load error is modelled as a queue
 * of pending advances. Each entry is the index the deferred `playNext` will
 * select: its closure saw the index of the moment the error happened. Timers
 * are never cancelled, and a `Fire` event runs the oldest one.
 */
module MusicPlayer {
  import opened Wrappers
  import opened Lrc
  import opened LyricResolver
  import opened Playlist

  datatype Player = Player(
    playlist: seq<Track>,
    currentIndex: nat,
    isPlaying: bool,
    showLyrics: bool,
    lyricsLines: seq<Cue>,
    activeLyricIndex: nat,
    loadError: bool,
    pendingAdvances: seq<nat>)
  {
    /**
     * What every reachable state satisfies: the index is in range, the
     * highlighted line is 0 or one of the lyric lines, and every pending
     * advance targets a track of the list.
     */
    predicate Valid() {
      && |playlist| > 0
      && currentIndex < |playlist|
      && (activeLyricIndex == 0 || activeLyricIndex < |lyricsLines|)
      && forall k :: 0 <= k < |pendingAdvances| ==> pendingAdvances[k] < |playlist|
    }

    /** The lyric lines on show are those parsed from the current track. */
    predicate LyricsInSync() {
      currentIndex < |playlist| && lyricsLines == LyricsOf(playlist[currentIndex])
    }
  }

  /** The index after `i` in a list of `n`, wrapping from the last to the first. */
  function NextIndex(i: nat, n: nat): (j: nat)
    requires i < n
    ensures j < n
  {
    if i + 1 == n then 0 else i + 1
  }

  /** The index before `i` in a list of `n`, wrapping from the first to the last. */
  function PrevIndex(i: nat, n: nat): (j: nat)
    requires i < n
    ensures j < n
  {
    if i == 0 then n - 1 else i - 1
  }

  /** `NextIndex` is `playNext`'s `(currentIndex + 1) % playlist.length`. */
  lemma NextIndexIsModular(i: nat, n: nat)
    requires i < n
    ensures NextIndex(i, n) == (i + 1) % n
  {
  }

  /** `PrevIndex` is `playPrev`'s `(currentIndex - 1 + playlist.length) % playlist.length`. */
  lemma PrevIndexIsModular(i: nat, n: nat)
    requires i < n
    ensures PrevIndex(i, n) == (i - 1 + n) % n
  {
  }

  /**
   * The first render and its effect run: nothing plays, lyrics are hidden, the
   * first track is current and its lyrics are parsed. An empty playlist has no
   * first track, and rendering it fails, so there is no player.
   */
  function Mount(playlist: seq<Track>): (r: Option<Player>)
    ensures r.None? <==> playlist == []
    ensures r.Some? ==> r.value.Valid() && r.value.LyricsInSync() && r.value.playlist == playlist
    ensures r.Some? ==> && r.value.currentIndex == 0 && !r.value.isPlaying && !r.value.showLyrics
                        && r.value.activeLyricIndex == 0 && !r.value.loadError
                        && r.value.lyricsLines == LyricsOf(playlist[0])
                        && r.value.pendingAdvances == []
  {
    if playlist == [] then None
    else Some(Player(playlist, 0, false, false, LyricsOf(playlist[0]), 0, false, []))
  }

  /**
   * `setCurrentIndex(target)` followed by the effect keyed on the index: when
   * the index really changes, the lyrics are re-parsed, the highlight goes back
   * to line 0 and the error flag is cleared; setting the same index again
   * re-runs nothing.
   */
  function SelectTrack(s: Player, target: nat): (r: Player)
    requires s.Valid() && target < |s.playlist|
    ensures r.Valid()
    ensures r.currentIndex == target
    ensures target == s.currentIndex ==> r == s
    ensures target != s.currentIndex ==>
              && r.lyricsLines == LyricsOf(s.playlist[target])
              && r.activeLyricIndex == 0 && !r.loadError
    ensures r.playlist == s.playlist && r.isPlaying == s.isPlaying
    ensures r.showLyrics == s.showLyrics && r.pendingAdvances == s.pendingAdvances
  {
    if target == s.currentIndex then s
    else s.(currentIndex := target, lyricsLines := LyricsOf(s.playlist[target]),
            activeLyricIndex := 0, loadError := false)
  }

  /** `playNext`: the following track, wrapping to the first, and play. */
  function PlayNext(s: Player): (r: Player)
    requires s.Valid()
    ensures r.Valid() && r.isPlaying
    ensures r.currentIndex == NextIndex(s.currentIndex, |s.playlist|)
    ensures r.currentIndex != s.currentIndex ==>
              && r.lyricsLines == LyricsOf(s.playlist[r.currentIndex])
              && r.activeLyricIndex == 0 && !r.loadError
    ensures r.currentIndex == s.currentIndex ==> r == s.(isPlaying := true)
    ensures r.playlist == s.playlist && r.showLyrics == s.showLyrics
    ensures r.pendingAdvances == s.pendingAdvances
  {
    SelectTrack(s, NextIndex(s.currentIndex, |s.playlist|)).(isPlaying := true)
  }

  /** `playPrev`: the preceding track, wrapping to the last, and play. */
  function PlayPrev(s: Player): (r: Player)
    requires s.Valid()
    ensures r.Valid() && r.isPlaying
    ensures r.currentIndex == PrevIndex(s.currentIndex, |s.playlist|)
    ensures r.currentIndex != s.currentIndex ==>
              && r.lyricsLines == LyricsOf(s.playlist[r.currentIndex])
              && r.activeLyricIndex == 0 && !r.loadError
    ensures r.currentIndex == s.currentIndex ==> r == s.(isPlaying := true)
    ensures r.playlist == s.playlist && r.showLyrics == s.showLyrics
    ensures r.pendingAdvances == s.pendingAdvances
  {
    SelectTrack(s, PrevIndex(s.currentIndex, |s.playlist|)).(isPlaying := true)
  }

  /**
   * `togglePlay`: with an audio element, flip between playing and paused;
   * without one, do nothing.
   */
  function TogglePlay(s: Player, audioReady: bool): (r: Player)
    requires s.Valid()
    ensures r.Valid()
    ensures r.isPlaying == (s.isPlaying != audioReady)
    ensures r.(isPlaying := s.isPlaying) == s
  {
    if audioReady then s.(isPlaying := !s.isPlaying) else s
  }

  /** The lyrics button: show or hide the lyrics panel. */
  function ToggleLyrics(s: Player): (r: Player)
    requires s.Valid()
    ensures r.Valid()
    ensures r.showLyrics == !s.showLyrics
    ensures r.(showLyrics := s.showLyrics) == s
  {
    s.(showLyrics := !s.showLyrics)
  }

  /**
   * `onTimeUpdate` at playback position `t` (milliseconds): with lyrics shown
   * and present, highlight the line the resolver finds, if it finds one.
   */
  function TimeUpdate(s: Player, t: int): (r: Player)
    requires s.Valid()
    ensures r.Valid()
    ensures r.(activeLyricIndex := s.activeLyricIndex) == s
    ensures r.activeLyricIndex != s.activeLyricIndex ==> s.showLyrics && IsActiveAt(s.lyricsLines, t, r.activeLyricIndex)
    ensures s.showLyrics && IsActiveAt(s.lyricsLines, t, r.activeLyricIndex) ==> r.activeLyricIndex == ActiveIndex(s.lyricsLines, t)
    ensures !s.showLyrics || s.lyricsLines == [] || ActiveIndex(s.lyricsLines, t) == -1 ==> r == s
    ensures s.showLyrics && ActiveIndex(s.lyricsLines, t) != -1 ==> r.activeLyricIndex == ActiveIndex(s.lyricsLines, t)
  {
    if s.showLyrics && |s.lyricsLines| > 0 then
      var index := ActiveIndex(s.lyricsLines, t);
      if index != -1 then s.(activeLyricIndex := index) else s
    else s
  }

  /**
   * `handleAudioError`: raise the error flag and start a one-second timer
   * whose `playNext` will select the track after the current one.
   */
  function AudioError(s: Player): (r: Player)
    requires s.Valid()
    ensures r.Valid() && r.loadError
    ensures r.pendingAdvances == s.pendingAdvances + [NextIndex(s.currentIndex, |s.playlist|)]
    ensures r.(loadError := s.loadError, pendingAdvances := s.pendingAdvances) == s
  {
    s.(loadError := true,
       pendingAdvances := s.pendingAdvances + [NextIndex(s.currentIndex, |s.playlist|)])
  }

  /**
   * The oldest pending timer fires: its stale `playNext` selects the track it
   * captured, whatever is current now, and plays.
   */
  function TimerFires(s: Player): (r: Player)
    requires s.Valid() && |s.pendingAdvances| > 0
    ensures r.Valid() && r.isPlaying
    ensures r.currentIndex == s.pendingAdvances[0]
    ensures r.pendingAdvances == s.pendingAdvances[1..]
    ensures r.showLyrics == s.showLyrics && r.playlist == s.playlist
    ensures r.currentIndex != s.currentIndex ==>
              && r.lyricsLines == LyricsOf(s.playlist[r.currentIndex])
              && r.activeLyricIndex == 0 && !r.loadError
    ensures r.currentIndex == s.currentIndex ==>
              r == s.(pendingAdvances := s.pendingAdvances[1..], isPlaying := true)
  {
    SelectTrack(s.(pendingAdvances := s.pendingAdvances[1..]), s.pendingAdvances[0]).(isPlaying := true)
  }

  /** What can happen to a mounted player. */
  datatype Event =
    | Next                      // the skip-forward button
    | Prev                      // the skip-back button
    | Toggle(audioReady: bool)  // the play/pause button
    | LyricsButton              // the lyrics toggle
    | Tick(t: int)              // a `timeupdate` at `t` ms
    | Ended                     // the track played to its end
    | LoadFailed                // the audio element reported an error
    | Fire                      // the oldest pending timer fires

  /**
   * Every event except the audio element's error and the timer it starts: the
   * listener's buttons, and the time updates and track end of normal playback.
   */
  predicate IsOrdinary(e: Event) {
    e.Next? || e.Prev? || e.Toggle? || e.LyricsButton? || e.Tick? || e.Ended?
  }

  /** One event. A `Fire` with no timer pending cannot happen and changes nothing. */
  function Step(s: Player, e: Event): (r: Player)
    requires s.Valid()
    ensures r.Valid() && r.playlist == s.playlist
    ensures IsOrdinary(e) ==> r.pendingAdvances == s.pendingAdvances
    ensures (e.Next? || e.Ended?) ==> r.currentIndex == NextIndex(s.currentIndex, |s.playlist|) && r.isPlaying
    ensures e.Prev? ==> r.currentIndex == PrevIndex(s.currentIndex, |s.playlist|) && r.isPlaying
    ensures e.Toggle? ==> r.isPlaying == (s.isPlaying != e.audioReady)
    ensures e.LyricsButton? ==> r.showLyrics == !s.showLyrics
    ensures e.Tick? && s.showLyrics && ActiveIndex(s.lyricsLines, e.t) != -1 ==>
              r.activeLyricIndex == ActiveIndex(s.lyricsLines, e.t)
    ensures e.LoadFailed? ==>
              r.loadError && r.pendingAdvances == s.pendingAdvances + [NextIndex(s.currentIndex, |s.playlist|)]
    ensures e.Fire? && s.pendingAdvances != [] ==>
              r.currentIndex == s.pendingAdvances[0] && r.pendingAdvances == s.pendingAdvances[1..]
    ensures e.Fire? && s.pendingAdvances == [] ==> r == s
    // Each event is handled by exactly one handler, whose contract above gives the frame and the reset.
    ensures (e.Next? || e.Ended?) ==> r == PlayNext(s)
    ensures e.Prev? ==> r == PlayPrev(s)
    ensures e.Toggle? ==> r == TogglePlay(s, e.audioReady)
    ensures e.LyricsButton? ==> r == ToggleLyrics(s)
    ensures e.Tick? ==> r == TimeUpdate(s, e.t)
    ensures e.LoadFailed? ==> r == AudioError(s)
    ensures e.Fire? && s.pendingAdvances != [] ==> r == TimerFires(s)
    // The track-change reset, stated for the events that can change the track.
    ensures (e.Next? || e.Prev? || e.Ended? || e.Fire?) && r.currentIndex != s.currentIndex ==>
              && r.lyricsLines == LyricsOf(s.playlist[r.currentIndex])
              && r.activeLyricIndex == 0 && !r.loadError
  {
    match e
    case Next => PlayNext(s)
    case Prev => PlayPrev(s)
    case Toggle(ready) => TogglePlay(s, ready)
    case LyricsButton => ToggleLyrics(s)
    case Tick(t) => TimeUpdate(s, t)
    case Ended => PlayNext(s)
    case LoadFailed => AudioError(s)
    case Fire => if |s.pendingAdvances| > 0 then TimerFires(s) else s
  }

  /** A run of events from a valid state stays valid and keeps its playlist. */
  function Run(s: Player, es: seq<Event>): (r: Player)
    requires s.Valid()
    ensures r.Valid() && r.playlist == s.playlist
    decreases |es|
  {
    if es == [] then s else Run(Step(s, es[0]), es[1..])
  }

  /** The end of a track does what the skip-forward button does. */
  lemma EndedIsNext(s: Player)
    requires s.Valid()
    ensures Step(s, Ended) == Step(s, Next)
  {
  }

  /** Every event keeps the lyrics on show those of the current track. */
  lemma StepKeepsLyricsInSync(s: Player, e: Event)
    requires s.Valid() && s.LyricsInSync()
    ensures Step(s, e).LyricsInSync()
  {
    match e
    case Next =>
    case Prev =>
    case Toggle(ready) =>
    case LyricsButton =>
    case Tick(t) =>
    case Ended =>
    case LoadFailed =>
    case Fire =>
  }

  /**
   * The track-change effect keeps the lyrics in step with the track: after
   * any run of events from a mounted player, the lines on show are the
   * current track's.
   */
  lemma {:induction false} RunKeepsLyricsInSync(s: Player, es: seq<Event>)
    requires s.Valid() && s.LyricsInSync()
    ensures Run(s, es).LyricsInSync()
    decreases |es|
  {
    if es != [] {
      StepKeepsLyricsInSync(s, es[0]);
      RunKeepsLyricsInSync(Step(s, es[0]), es[1..]);
    }
  }

  /** From mount on, whatever happens, the lyric lines held belong to the track that is current. */
  lemma MountedLyricsStayInSync(playlist: seq<Track>, es: seq<Event>)
    requires playlist != []
    ensures Run(Mount(playlist).value, es).LyricsInSync()
  {
    RunKeepsLyricsInSync(Mount(playlist).value, es);
  }

  /** `playNext` from the last track goes to the first. */
  lemma NextWrapsToFirst(s: Player)
    requires s.Valid() && s.currentIndex == |s.playlist| - 1
    ensures PlayNext(s).currentIndex == 0
  {
  }

  /** `playPrev` from the first track goes to the last. */
  lemma PrevWrapsToLast(s: Player)
    requires s.Valid() && s.currentIndex == 0
    ensures PlayPrev(s).currentIndex == |s.playlist| - 1
  {
  }

  /** `playPrev` undoes `playNext`: the same track, with its lyrics, and playing. */
  lemma PrevUndoesNext(s: Player)
    requires s.Valid()
    ensures PlayPrev(PlayNext(s)).currentIndex == s.currentIndex
    ensures s.LyricsInSync() ==> PlayPrev(PlayNext(s)).lyricsLines == s.lyricsLines
    ensures PlayPrev(PlayNext(s)).isPlaying
  {
  }

  /** `playNext` undoes `playPrev`. */
  lemma NextUndoesPrev(s: Player)
    requires s.Valid()
    ensures PlayNext(PlayPrev(s)).currentIndex == s.currentIndex
  {
  }

  /** The toggles are involutions: pressing twice restores the state. */
  lemma TogglesUndoThemselves(s: Player, audioReady: bool)
    requires s.Valid()
    ensures TogglePlay(TogglePlay(s, audioReady), audioReady) == s
    ensures ToggleLyrics(ToggleLyrics(s)) == s
  {
  }

  /**
   * With at least two tracks, an error followed by its timer does what
   * `playNext` does from the state before the error: the next track, the
   * error flag cleared by the track change.
   */
  lemma ErrorThenTimerIsPlayNext(s: Player)
    requires s.Valid() && s.pendingAdvances == [] && |s.playlist| >= 2
    ensures TimerFires(AudioError(s)) == PlayNext(s)
  {
    var n := |s.playlist|;
    assert NextIndex(s.currentIndex, n) != s.currentIndex;
  }

  /**
   * With a single track the timer selects the same index, the effect does not
   * re-run, and the error flag stays raised.
   */
  lemma SingleTrackErrorPersists(s: Player)
    requires s.Valid() && s.pendingAdvances == [] && |s.playlist| == 1
    ensures TimerFires(AudioError(s)).loadError
    ensures TimerFires(AudioError(s)).currentIndex == s.currentIndex
  {
  }

  /**
   * A pending advance is never cancelled: whatever the listener does after an
   * error, and however playback goes on, the timer's target stays queued, unchanged.
   */
  lemma {:induction false} OrdinaryEventsKeepTimers(s: Player, es: seq<Event>)
    requires s.Valid()
    requires forall k :: 0 <= k < |es| ==> IsOrdinary(es[k])
    ensures Run(s, es).pendingAdvances == s.pendingAdvances
    decreases |es|
  {
    if es != [] {
      OrdinaryEventsKeepTimers(Step(s, es[0]), es[1..]);
    }
  }

  /**
   * The deferred advance uses the index captured at the error: after an error
   * on track `i` and any ordinary events (buttons, time updates, track ends), the timer selects track `i + 1`
   * (wrapping), not the one after wherever the listener went.
   */
  lemma StaleAdvance(s: Player, es: seq<Event>)
    requires s.Valid() && s.pendingAdvances == []
    requires forall k :: 0 <= k < |es| ==> IsOrdinary(es[k])
    ensures Run(AudioError(s), es).pendingAdvances == [NextIndex(s.currentIndex, |s.playlist|)]
    ensures TimerFires(Run(AudioError(s), es)).currentIndex == NextIndex(s.currentIndex, |s.playlist|)
  {
    OrdinaryEventsKeepTimers(AudioError(s), es);
  }

  /**
   * A fresh player whose first track fails to load recovers on the second:
   * after the timer, track 1 plays with its own lyrics and no error shown.
   */
  lemma RecoveryFromFirstTrack(playlist: seq<Track>)
    requires |playlist| >= 2
    ensures Mount(playlist).Some?
    ensures var r := TimerFires(AudioError(Mount(playlist).value));
            && r.currentIndex == 1 && r.isPlaying && !r.loadError
            && r.lyricsLines == LyricsOf(playlist[1]) && r.activeLyricIndex == 0
  {
  }

  /** With lyrics shown on an ordered timeline, the highlight only moves forward as playback advances. */
  lemma HighlightMovesForward(s: Player, t1: int, t2: int)
    requires s.Valid() && s.showLyrics && NonDecreasing(s.lyricsLines)
    requires t1 <= t2 && ActiveIndex(s.lyricsLines, t1) != -1
    ensures TimeUpdate(TimeUpdate(s, t1), t2).activeLyricIndex >= TimeUpdate(s, t1).activeLyricIndex
  {
    ActiveIndexMonotone(s.lyricsLines, t1, t2);
  }

  /** The portfolio with no playlist of its own mounts on the thirteen default tracks. */
  lemma DefaultPlaylistMounts()
    ensures Mount(PlaylistOrDefault(None)).Some?
    ensures |Mount(PlaylistOrDefault(None)).value.playlist| == 13
  {
  }
}

=== FILE: playlist.dfy ===
/**
 * The playlist the player indexes into, and the built-in default playlist
 * used when the portfolio data supplies none.
 */
module Playlist {
  import opened Wrappers
  import opened JsText
  import opened Lrc

  /**
   * One track. A missing `cover` or `lrc` is the empty string: `secureUrl`
   * and `parseLrc` treat an absent value exactly as they treat "".
   */
  datatype Track = Track(id: nat, title: string, artist: string, cover: string, lrc: string)

  /** The cues of a track, as the player derives them on every track change. */
  function LyricsOf(t: Track): seq<Cue> {
    ParseLrc(t.lrc)
  }

  /** The five timed lines of the first default track's lyrics. */
  const FirstTrackLines: seq<Entry> := [
    Entry(Tag(0, 0, 0, 2), "作词 : MIMI"),
    Entry(Tag(0, 1, 0, 2), "作曲 : MIMI"),
    Entry(Tag(0, 5, 0, 2), "只有刺痛心灵的话语 (Instrumental)"),
    Entry(Tag(0, 10, 0, 2), "（此处为示例歌词，请粘贴完整LRC）"),
    Entry(Tag(0, 15, 0, 2), "Music playing...")]

  /**
   * The lyrics text of the first default track: those five lines, each an
   * `[mm:ss.xx]` tag followed by its text, joined with newlines.
   */
  const FirstTrackLrc: string := (FirstTrackLinesWritable(); JoinLines(FormatLyrics(FirstTrackLines)))

  /** Every line of the first track's lyrics can be written as an LRC line. */
  lemma FirstTrackLinesWritable()
    ensures forall i :: 0 <= i < |FirstTrackLines| ==> WritableEntry(FirstTrackLines[i])
  {
    FirstTrackLineWritable0();
    FirstTrackLineWritable1();
    FirstTrackLineWritable2();
    FirstTrackLineWritable3();
    FirstTrackLineWritable4();
  }

  /** The cues those lines stand for: 0, 1, 5, 10 and 15 seconds in. */
  lemma FirstTrackCues()
    ensures ToCues(FirstTrackLines) == [
      Cue(0, "作词 : MIMI"), Cue(1000, "作曲 : MIMI"),
      Cue(5000, "只有刺痛心灵的话语 (Instrumental)"),
      Cue(10000, "（此处为示例歌词，请粘贴完整LRC）"),
      Cue(15000, "Music playing...")]
  {
  }

  /** The first track's lyrics as the source's template literal spells them, line by line. */
  const FirstTrackSourceLines: seq<string> := [
    "[00:00.00]" + "作词 : MIMI",
    "[00:01.00]" + "作曲 : MIMI",
    "[00:05.00]" + "只有刺痛心灵的话语 (Instrumental)",
    "[00:10.00]" + "（此处为示例歌词，请粘贴完整LRC）",
    "[00:15.00]" + "Music playing..."]

  /** Each timed line can be written as an LRC line. */
  lemma FirstTrackLineWritable0()
    ensures WritableEntry(FirstTrackLines[0])
  {
    var text := "作词 : MIMI";
    assert FirstTrackLines[0] == Entry(Tag(0, 0, 0, 2), text);
    assert forall i | 0 <= i < |text| :: text[i] != '\n';
  }

  lemma FirstTrackLineWritable1()
    ensures WritableEntry(FirstTrackLines[1])
  {
    var text := "作曲 : MIMI";
    assert FirstTrackLines[1] == Entry(Tag(0, 1, 0, 2), text);
    assert forall i | 0 <= i < |text| :: text[i] != '\n';
  }

  lemma FirstTrackLineWritable2()
    ensures WritableEntry(FirstTrackLines[2])
  {
    var text := "只有刺痛心灵的话语 (Instrumental)";
    assert FirstTrackLines[2] == Entry(Tag(0, 5, 0, 2), text);
    assert forall i | 0 <= i < |text| :: text[i] != '\n';
  }

  lemma FirstTrackLineWritable3()
    ensures WritableEntry(FirstTrackLines[3])
  {
    var text := "（此处为示例歌词，请粘贴完整LRC）";
    assert FirstTrackLines[3] == Entry(Tag(0, 10, 0, 2), text);
    assert forall i | 0 <= i < |text| :: text[i] != '\n';
  }

  lemma FirstTrackLineWritable4()
    ensures WritableEntry(FirstTrackLines[4])
  {
    var text := "Music playing...";
    assert FirstTrackLines[4] == Entry(Tag(0, 15, 0, 2), text);
    assert forall i | 0 <= i < |text| :: text[i] != '\n';
  }

  /** Each timed line, written out, is the corresponding line of the source's literal. */
  lemma FirstTrackLineWritten0()
    requires WritableEntry(FirstTrackLines[0])
    ensures FormatLine(FirstTrackLines[0]) == FirstTrackSourceLines[0]
  {
    assert FirstTrackLines[0] == Entry(Tag(0, 0, 0, 2), "作词 : MIMI");
    assert Tag(0, 0, 0, 2).Format() == "[00:00.00]";
  }

  lemma FirstTrackLineWritten1()
    requires WritableEntry(FirstTrackLines[1])
    ensures FormatLine(FirstTrackLines[1]) == FirstTrackSourceLines[1]
  {
    assert FirstTrackLines[1] == Entry(Tag(0, 1, 0, 2), "作曲 : MIMI");
    assert Tag(0, 1, 0, 2).Format() == "[00:01.00]";
  }

  lemma FirstTrackLineWritten2()
    requires WritableEntry(FirstTrackLines[2])
    ensures FormatLine(FirstTrackLines[2]) == FirstTrackSourceLines[2]
  {
    assert FirstTrackLines[2] == Entry(Tag(0, 5, 0, 2), "只有刺痛心灵的话语 (Instrumental)");
    assert Tag(0, 5, 0, 2).Format() == "[00:05.00]";
  }

  lemma FirstTrackLineWritten3()
    requires WritableEntry(FirstTrackLines[3])
    ensures FormatLine(FirstTrackLines[3]) == FirstTrackSourceLines[3]
  {
    assert FirstTrackLines[3] == Entry(Tag(0, 10, 0, 2), "（此处为示例歌词，请粘贴完整LRC）");
    assert Tag(0, 10, 0, 2).Format() == "[00:10.00]";
  }

  lemma FirstTrackLineWritten4()
    requires WritableEntry(FirstTrackLines[4])
    ensures FormatLine(FirstTrackLines[4]) == FirstTrackSourceLines[4]
  {
    assert FirstTrackLines[4] == Entry(Tag(0, 15, 0, 2), "Music playing...");
    assert Tag(0, 15, 0, 2).Format() == "[00:15.00]";
  }

  /** Entries that are written out as given lines join up to those lines joined. */
  lemma JoinWritten(es: seq<Entry>, src: seq<string>)
    requires |es| == |src| > 0
    requires forall i :: 0 <= i < |es| ==> WritableEntry(es[i]) && FormatLine(es[i]) == src[i]
    ensures JoinLines(FormatLyrics(es)) == JoinLines(src)
  {
    assert FormatLyrics(es) == src;
  }

  /** The first track's lyrics text is the source's template literal: its five lines joined by newlines. */
  lemma FirstTrackLrcAsWritten()
    ensures FirstTrackLrc == JoinLines(FirstTrackSourceLines)
  {
    FirstTrackLinesWritable();
    FirstTrackLineWritten0();
    FirstTrackLineWritten1();
    FirstTrackLineWritten2();
    FirstTrackLineWritten3();
    FirstTrackLineWritten4();
    JoinWritten(FirstTrackLines, FirstTrackSourceLines);
  }

  /** The first track's lyrics text parses back to exactly its five lines. */
  lemma FirstTrackLrcParses()
    ensures ParseLrc(FirstTrackLrc) == ToCues(FirstTrackLines)
  {
    FirstTrackLinesWritable();
    ParseFormattedLyrics(FirstTrackLines);
  }

  /** `DEFAULT_PLAYLIST`: thirteen tracks, only the first with lyrics. */
  const DefaultPlaylist: seq<Track> := [
    Track(2091770490, "心を刺す言葉だけ", "MIMI / 初音ミク / 可不",
      "https://p1.music.126.net/sqXOIOY78hwZHprUaVrWDg==/109951168990382920.jpg",
      FirstTrackLrc),
    Track(3340137252, "纸飞机", "鸣潮先约电台 / 飞行雪绒",
      "https://p1.music.126.net/JP0G2ELXQGfeTvzEsOqeCw==/109951172603135736.jpg",
      ""),
    Track(2146403327, "达道，东山", "因你而在的梦",
      "https://p1.music.126.net/Lsxwas9NJ4TCnyAcdS01jA==/109951169499871617.jpg",
      ""),
    Track(2013750367, "新生", "leomantic",
      "https://p2.music.126.net/qnco-vO6kLkl2l6yp74GFQ==/109951168212021441.jpg",
      ""),
    Track(1905096365, "嵌在晚霞中的橘", "邹牧虞",
      "https://p1.music.126.net/WUUBlyhAFUvFDJ4MJXIx6A==/109951166753692371.jpg",
      ""),
    Track(2141151463, "泥潭", "王子健",
      "https://p2.music.126.net/pJDsdlLiG6eOsv100nbs_g==/109951169458351646.jpg",
      ""),
    Track(1879128089, "琥珀艾尔（Amber Ale）", "灰澈",
      "https://p1.music.126.net/uTDm4og_OErehDU5gh_NQg==/109951166427186614.jpg",
      ""),
    Track(2667716747, "云海乐章", "鸣潮先约电台 / jkinss",
      "https://p1.music.126.net/8-AlS_ljHufHQ_J3LIo9vg==/109951170406599556.jpg",
      ""),
    Track(1912152425, "等风来", "Parion圆周率",
      "https://p2.music.126.net/FNzch14tbbIHwHH4wlcW_A==/109951165411841248.jpg",
      ""),
    Track(2676687608, "Daisy Crown", "Empty old City",
      "https://p2.music.126.net/J0ZfqWmqX3zGJLzTubJ7vg==/109951170498554226.jpg",
      ""),
    Track(2667716744, "故风吟游之地", "鸣潮先约电台",
      "https://p1.music.126.net/8-AlS_ljHufHQ_J3LIo9vg==/109951170406599556.jpg",
      ""),
    Track(2722447989, "致以无名的抗争者", "鸣潮先约电台",
      "https://p2.music.126.net/ThQj6h7-ZtSoeRRESBYa_A==/109951171402488996.jpg",
      ""),
    Track(2111042517, "一日还", "此间不语",
      "https://p2.music.126.net/0acW73oztapT-SZl0RdSbg==/109951169200781159.jpg",
      "")
  ]

  /** `data.playlist || DEFAULT_PLAYLIST`: any supplied list, even an empty one, wins. */
  function PlaylistOrDefault(supplied: Option<seq<Track>>): (p: seq<Track>)
    ensures supplied.None? ==> p == DefaultPlaylist && |p| == 13
    ensures supplied.Some? ==> p == supplied.value
  {
    supplied.GetOr(DefaultPlaylist)
  }

  /** The first default track's lyrics give five cues, at 0, 1, 5, 10 and 15 seconds. */
  lemma FirstTrackLyrics()
    ensures LyricsOf(DefaultPlaylist[0]) == [
      Cue(0, "作词 : MIMI"), Cue(1000, "作曲 : MIMI"),
      Cue(5000, "只有刺痛心灵的话语 (Instrumental)"),
      Cue(10000, "（此处为示例歌词，请粘贴完整LRC）"),
      Cue(15000, "Music playing...")]
  {
    assert DefaultPlaylist[0].lrc == FirstTrackLrc;
    FirstTrackLrcParses();
    FirstTrackCues();
  }

  lemma OtherTracksHaveEmptyLrc()
    ensures forall i :: 1 <= i < |DefaultPlaylist| ==> DefaultPlaylist[i].lrc == ""
  {
  }

  /** Every other default track has `lrc: ""`, so an empty timeline. */
  lemma OtherTracksHaveNoLyrics()
    ensures forall i :: 1 <= i < |DefaultPlaylist| ==> LyricsOf(DefaultPlaylist[i]) == []
  {
    OtherTracksHaveEmptyLrc();
  }
}

=== FILE: resolver.dfy ===
/**
 * The active-line resolver run on every playback progress tick: the first
 * cue that has started and whose successor has not.
 */
module LyricResolver {
  import opened Lrc

  /** Cue `i` is the one playing at time `t`: it has started and the next one has not. */
  predicate IsActiveAt(cues: seq<Cue>, t: int, i: int) {
    0 <= i < |cues| && cues[i].timeMs <= t && (i == |cues| - 1 || t < cues[i + 1].timeMs)
  }

  /** The `findIndex` scan from position `k` on. */
  function FindActiveFrom(cues: seq<Cue>, t: int, k: nat): (r: int)
    requires k <= |cues|
    ensures r == -1 || k <= r < |cues|
    ensures r == -1 ==> forall i :: k <= i < |cues| ==> !IsActiveAt(cues, t, i)
    ensures r != -1 ==> IsActiveAt(cues, t, r)
    ensures r != -1 ==> forall i :: k <= i < r ==> !IsActiveAt(cues, t, i)
    decreases |cues| - k
  {
    if k == |cues| then -1
    else if IsActiveAt(cues, t, k) then k
    else FindActiveFrom(cues, t, k + 1)
  }

  /**
   * The index of the active cue at time `t` in milliseconds: the least `i`
   * active at `t`, or -1 when there is none.
   */
  function ActiveIndex(cues: seq<Cue>, t: int): (r: int)
    ensures -1 <= r < |cues|
    ensures r == -1 <==> forall i :: 0 <= i < |cues| ==> !IsActiveAt(cues, t, i)
    ensures r != -1 ==> IsActiveAt(cues, t, r) && forall i :: 0 <= i < r ==> !IsActiveAt(cues, t, i)
  {
    FindActiveFrom(cues, t, 0)
  }

  /** Cue times never go down. */
  predicate NonDecreasing(cues: seq<Cue>) {
    forall i, j :: 0 <= i < j < |cues| ==> cues[i].timeMs <= cues[j].timeMs
  }

  /** Cue times strictly increase. */
  predicate StrictlyIncreasing(cues: seq<Cue>) {
    forall i, j :: 0 <= i < j < |cues| ==> cues[i].timeMs < cues[j].timeMs
  }

  /** Before the first cue of an ordered timeline nothing is active. */
  lemma BeforeFirstCue(cues: seq<Cue>, t: int)
    requires NonDecreasing(cues) && |cues| > 0 && t < cues[0].timeMs
    ensures ActiveIndex(cues, t) == -1
  {
    forall i | 0 <= i < |cues| ensures !IsActiveAt(cues, t, i) {
      if i > 0 {
        assert cues[0].timeMs <= cues[i].timeMs;
      }
    }
  }

  /** On an ordered timeline at most one cue is active at a time, so a found cue is the found one. */
  lemma ActiveIsUnique(cues: seq<Cue>, t: int, i: int)
    requires NonDecreasing(cues) && IsActiveAt(cues, t, i)
    ensures ActiveIndex(cues, t) == i
  {
    forall j | 0 <= j < i ensures !IsActiveAt(cues, t, j) {
      assert cues[j + 1].timeMs <= cues[i].timeMs;
    }
  }

  /** From the last cue's time on, an ordered timeline's last cue is active. */
  lemma AtOrAfterLastCue(cues: seq<Cue>, t: int)
    requires StrictlyIncreasing(cues) && |cues| > 0 && cues[|cues| - 1].timeMs <= t
    ensures ActiveIndex(cues, t) == |cues| - 1
  {
    ActiveIsUnique(cues, t, |cues| - 1);
  }

  /** Once an ordered timeline's first cue has started, some cue is always active. */
  lemma {:induction false} SomeCueActive(cues: seq<Cue>, t: int)
    requires NonDecreasing(cues) && |cues| > 0 && cues[0].timeMs <= t
    ensures ActiveIndex(cues, t) != -1
    decreases |cues|
  {
    var last := |cues| - 1;
    if cues[last].timeMs <= t {
      assert IsActiveAt(cues, t, last);
    } else {
      var init := cues[..last];
      if |init| == 0 {
        assert false;
      } else {
        SomeCueActive(init, t);
        var k := ActiveIndex(init, t);
        assert IsActiveAt(init, t, k);
        assert IsActiveAt(cues, t, k);
      }
    }
  }

  /** Of two cues sharing a time, the earlier is never reported active: the later one wins. */
  lemma SharedTimeLaterWins(cues: seq<Cue>, t: int, i: nat)
    requires i + 1 < |cues| && cues[i].timeMs == cues[i + 1].timeMs
    ensures ActiveIndex(cues, t) != i
  {
  }

  /** On an ordered timeline the active line only moves forward as time advances. */
  lemma ActiveIndexMonotone(cues: seq<Cue>, t1: int, t2: int)
    requires NonDecreasing(cues) && t1 <= t2
    requires ActiveIndex(cues, t1) != -1
    ensures ActiveIndex(cues, t1) <= ActiveIndex(cues, t2)
  {
    SomeCueActive(cues, t2);
  }

  /** Cues at 0 s, 5 s and 10 s: at 7 s the middle one is active. */
  lemma ResolverExample()
    ensures ActiveIndex([Cue(0, "a"), Cue(5000, "b"), Cue(10000, "c")], 7000) == 1
  {
    var cues := [Cue(0, "a"), Cue(5000, "b"), Cue(10000, "c")];
    ActiveIsUnique(cues, 7000, 1);
  }
}

=== FILE: server.dfy ===
/**
 * The backend's request validation: how the `Authorization` header is read,
 * which request bodies are refused before any storage is touched, the email
 * format check, and which HTTP status each outcome gets.
 *
 * The database, password hashing and token signing are not modelled: each
 * handler takes their outcomes as inputs (a lookup result, a comparison
 * function, a signing function), so the model covers every path through the
 * handler whatever those libraries do.
 */
module Server {
  import opened Wrappers
  import opened JsText

  /** What a handler sends back. */
  datatype Response =
    | Failure(code: nat, message: string)          // `res.status(code).json({ message })`
    | Registered(token: string, username: string)  // 201 `{ message: "registered", token, username }`
    | LoggedIn(token: string, username: string)    // 200 `{ token, username }`
    | ConfigBody(config: Option<string>)           // 200 `{ config }`, with `null` as None
    | Saved                                        // 200 `{ message: "saved" }`
  {
    function Status(): nat {
      match this
      case Failure(code, _) => code
      case Registered(_, _) => 201
      case _ => 200
    }
  }

  const MissingToken: string := "Missing token"
  const InvalidToken: string := "Invalid token"
  const RegisterFieldsRequired: string := "username, email and password are required"
  const BadEmail: string := "email 格式不正确"
  const AlreadyTaken: string := "用户名或邮箱已存在"
  const ServerError: string := "server error"
  const LoginFieldsRequired: string := "username and password are required"
  const BadCredentials: string := "无效的用户名或密码"
  const ConfigRequired: string := "config is required"

  /** Every status a handler can answer with. */
  predicate KnownStatus(code: nat) {
    code == 200 || code == 201 || code == 400 || code == 401 || code == 409 || code == 500
  }

  /** A body field as JavaScript's `!field` sees it: present and not the empty string. */
  predicate Truthy(v: Option<string>) {
    v.Some? && v.value != []
  }

  // ---------------------------------------------------------------------------
  // The `Authorization` header: /^Bearer\s+(.+)$/i
  // ---------------------------------------------------------------------------

  predicate NoLineTerminator(s: string) {
    forall i :: 0 <= i < |s| ==> !IsLineTerminator(s[i])
  }

  /**
   * The header matches the pattern with `\s+` taking exactly `k` characters:
   * it starts with "bearer" in any case, then `k >= 1` whitespace characters,
   * then a non-empty rest with no line terminator (`.` refuses those, and `$`
   * without the `m` flag is the end of the input).
   */
  predicate MatchesWithSpaces(h: string, k: nat) {
    && StartsWithIgnoringCase(h, "bearer")
    && 1 <= k && 6 + k < |h|
    && AllSpace(h[6..6 + k])
    && NoLineTerminator(h[6 + k..])
  }

  /** The length of the run of whitespace starting at `from`. */
  function SpaceRun(s: string, from: nat): (n: nat)
    requires from <= |s|
    ensures from + n <= |s|
    ensures forall i :: from <= i < from + n ==> IsSpace(s[i])
    ensures from + n == |s| || !IsSpace(s[from + n])
    decreases |s| - from
  {
    if from < |s| && IsSpace(s[from]) then 1 + SpaceRun(s, from + 1) else 0
  }

  /** The regular expression engine's backtracking: `\s+` tries `k` characters, then fewer. */
  function Backtrack(h: string, k: nat): (r: Option<string>)
    ensures r.Some? ==> exists j :: 1 <= j <= k && MatchesWithSpaces(h, j) && r.value == h[6 + j..]
                                    && forall j' :: j < j' <= k ==> !MatchesWithSpaces(h, j')
    ensures r.None? ==> forall j :: 1 <= j <= k ==> !MatchesWithSpaces(h, j)
  {
    if k == 0 then None
    else if MatchesWithSpaces(h, k) then Some(h[6 + k..])
    else Backtrack(h, k - 1)
  }

  /**
   * The token `authMiddleware` extracts, `m[1]`: the rest of the header after
   * the longest whitespace run that still leaves a match. None when the
   * pattern does not match at all.
   */
  function BearerToken(h: string): (r: Option<string>)
    ensures r.None? <==> forall k :: !MatchesWithSpaces(h, k)
    ensures r.Some? ==> exists k :: MatchesWithSpaces(h, k) && r.value == h[6 + k..]
                                    && forall k' :: k < k' ==> !MatchesWithSpaces(h, k')
  {
    if StartsWithIgnoringCase(h, "bearer") then
      var w := SpaceRun(h, 6);
      assert forall k :: w < k ==> !MatchesWithSpaces(h, k) by {
        forall k | w < k ensures !MatchesWithSpaces(h, k) {
          if 6 + k < |h| {
            assert h[6..6 + k][w] == h[6 + w];
          }
        }
      }
      Backtrack(h, w)
    else None
  }

  /** `"Bearer " + tok` gives back `tok` when `tok` is a single line that does not start with whitespace. */
  lemma TokenAfterBearer(tok: string)
    requires tok != [] && NoLineTerminator(tok) && !IsSpace(tok[0])
    ensures BearerToken("Bearer " + tok) == Some(tok)
  {
    var h := "Bearer " + tok;
    assert h[6 + 1..] == tok;
    assert MatchesWithSpaces(h, 1);
    assert h[7] == tok[0];
  }

  /** The scheme's case does not matter, and any whitespace run separates it from the token. */
  lemma TokenAfterAnyScheme(scheme: string, sep: string, tok: string)
    requires |scheme| == 6 && StartsWithIgnoringCase(scheme, "bearer")
    requires sep != [] && AllSpace(sep)
    requires tok != [] && NoLineTerminator(tok) && !IsSpace(tok[0])
    ensures BearerToken(scheme + sep + tok) == Some(tok)
  {
    var h := scheme + sep + tok;
    var k := |sep|;
    assert h[6..6 + k] == sep;
    assert h[6 + k..] == tok;
    assert MatchesWithSpaces(h, k);
    forall j | k < j ensures !MatchesWithSpaces(h, j) {
      if 6 + j <= |h| {
        assert h[6..6 + j][k] == tok[0];
      }
    }
  }

  /** A header that does not start with the scheme has no token. */
  lemma NoSchemeNoToken(h: string)
    requires !StartsWithIgnoringCase(h, "bearer")
    ensures BearerToken(h) == None
  {
  }

  /** Whitespace alone after the scheme backtracks: `"Bearer  "` yields the token `" "`. */
  lemma BlankTokenExample()
    ensures BearerToken("Bearer  ") == Some(" ")
    ensures BearerToken("Bearer ") == None
  {
    SpaceTokenExample();
    NoTokenExample();
  }

  lemma SpaceTokenExample()
    ensures BearerToken("Bearer  ") == Some(" ")
  {
    var h := "Bearer  ";
    assert MatchesWithSpaces(h, 1) && h[7..] == " ";
  }

  lemma NoTokenExample()
    ensures BearerToken("Bearer ") == None
  {
    assert !MatchesWithSpaces("Bearer ", 1);
  }

  /** Where `authMiddleware` leaves a request: passed on with a user id, or answered. */
  datatype AuthOutcome = Authorized(userId: nat) | Rejected(response: Response)

  /**
   * `authMiddleware`. A missing header is read as "". `verify` stands for
   * `jwt.verify` with the server's secret: the token's user id, or None when
   * it throws.
   */
  function Authenticate(header: Option<string>, verify: string -> Option<nat>): (r: AuthOutcome)
    ensures r.Rejected? ==> r.response.Status() == 401
    ensures r == Rejected(Failure(401, MissingToken)) <==> BearerToken(header.GetOr("")).None?
    ensures r == Rejected(Failure(401, InvalidToken)) <==>
              BearerToken(header.GetOr("")).Some? && verify(BearerToken(header.GetOr("")).value).None?
    ensures r.Authorized? <==>
              BearerToken(header.GetOr("")).Some? && verify(BearerToken(header.GetOr("")).value).Some?
    ensures r.Authorized? ==> verify(BearerToken(header.GetOr("")).value) == Some(r.userId)
  {
    match BearerToken(header.GetOr(""))
    case None => Rejected(Failure(401, MissingToken))
    case Some(token) =>
      match verify(token)
      case None => Rejected(Failure(401, InvalidToken))
      case Some(id) => Authorized(id)
  }

  /** Without a header there is no token to check. */
  lemma NoHeaderMissingToken(verify: string -> Option<nat>)
    ensures Authenticate(None, verify) == Rejected(Failure(401, MissingToken))
  {
  }

  // ---------------------------------------------------------------------------
  // The email check: /^[^\s@]+@[^\s@]+\.[^\s@]+$/
  // ---------------------------------------------------------------------------

  /** `[^\s@]`. */
  predicate EmailChar(c: char) {
    !IsSpace(c) && c != '@'
  }

  predicate AllEmailChars(s: string) {
    forall i :: 0 <= i < |s| ==> EmailChar(s[i])
  }

  /** The position of the first `c` at or after `from`, if any. */
  function IndexOf(s: string, c: char, from: nat): (r: Option<nat>)
    requires from <= |s|
    ensures r.Some? ==> from <= r.value < |s| && s[r.value] == c
    ensures r.Some? ==> forall i :: from <= i < r.value ==> s[i] != c
    ensures r.None? ==> forall i :: from <= i < |s| ==> s[i] != c
    decreases |s| - from
  {
    if from == |s| then None
    else if s[from] == c then Some(from)
    else IndexOf(s, c, from + 1)
  }

  /**
   * The check as the regular expression engine runs it: the local part runs
   * up to the first `@`, the domain is everything after it, and the domain
   * needs a `.` with something on each side.
   */
  function EmailOk(e: string): bool {
    match IndexOf(e, '@', 0)
    case None => false
    case Some(at) =>
      var domain := e[at + 1..];
      && 0 < at && AllEmailChars(e[..at]) && AllEmailChars(domain)
      && |domain| >= 3 && '.' in domain[1..|domain| - 1]
  }

  /**
   * What the pattern accepts, position by position: one `@` after a
   * non-empty local part, a `.` later with at least one character between
   * them and one after it, and no other `@` or whitespace anywhere.
   */
  predicate EmailShape(e: string) {
    exists at, dot ::
      && 0 < at && at + 1 < dot && dot + 1 < |e|
      && e[at] == '@' && e[dot] == '.'
      && forall i :: 0 <= i < |e| && i != at ==> EmailChar(e[i])
  }

  lemma EmailOkHasShape(e: string)
    requires EmailOk(e)
    ensures EmailShape(e)
  {
    var at := IndexOf(e, '@', 0).value;
    var domain := e[at + 1..];
    var j :| 0 <= j < |domain[1..|domain| - 1]| && domain[1..|domain| - 1][j] == '.';
    var dot := at + 2 + j;
    assert e[dot] == '.';
    forall i | 0 <= i < |e| && i != at ensures EmailChar(e[i]) {
      if i < at {
        assert e[..at][i] == e[i];
      } else {
        assert domain[i - at - 1] == e[i];
      }
    }
  }

  lemma EmailShapeIsOk(e: string)
    requires EmailShape(e)
    ensures EmailOk(e)
  {
    var at, dot :| && 0 < at && at + 1 < dot && dot + 1 < |e|
                   && e[at] == '@' && e[dot] == '.'
                   && forall i :: 0 <= i < |e| && i != at ==> EmailChar(e[i]);
    assert IndexOf(e, '@', 0) == Some(at);
    var domain := e[at + 1..];
    assert domain[1..|domain| - 1][dot - at - 2] == '.';
  }

  /** The engine's run and the pattern's shape agree on every string. */
  lemma EmailOkIff(e: string)
    ensures EmailOk(e) <==> EmailShape(e)
  {
    if EmailOk(e) {
      EmailOkHasShape(e);
    }
    if EmailShape(e) {
      EmailShapeIsOk(e);
    }
  }


  /** A local part, a domain name and a suffix, none of them blank, make an acceptable address. */
  lemma EmailOfParts(local: string, name: string, suffix: string)
    requires local != [] && name != [] && suffix != []
    requires AllEmailChars(local) && AllEmailChars(name) && AllEmailChars(suffix)
    ensures EmailOk(local + "@" + name + "." + suffix)
  {
    var e := local + "@" + name + "." + suffix;
    var at, dot := |local|, |local| + 1 + |name|;
    assert e[at] == '@' && e[dot] == '.';
    forall i | 0 <= i < |e| && i != at ensures EmailChar(e[i]) {
      if i < at {
        assert e[i] == local[i];
      } else if i < dot {
        assert e[i] == name[i - at - 1];
      } else if i > dot {
        assert e[i] == suffix[i - dot - 1];
      }
    }
    EmailOkIff(e);
  }

  /** An address with whitespace anywhere is refused. */
  lemma EmailRefusesWhitespace(e: string, i: nat)
    requires i < |e| && IsSpace(e[i])
    ensures !EmailOk(e)
  {
    EmailOkIff(e);
  }

  /** An address without a `.` is refused. */
  lemma EmailNeedsDot(e: string)
    requires '.' !in e
    ensures !EmailOk(e)
  {
    EmailOkIff(e);
  }

  /** An address with two `@` is refused. */
  lemma EmailRefusesSecondAt(e: string, i: nat, j: nat)
    requires i < j < |e| && e[i] == '@' && e[j] == '@'
    ensures !EmailOk(e)
  {
    EmailOkIff(e);
  }

  // ---------------------------------------------------------------------------
  // POST /auth/register
  // ---------------------------------------------------------------------------

  /** The fields the handler reads from `req.body`; a missing body has none of them. */
  datatype RegisterBody = RegisterBody(username: Option<string>, email: Option<string>, password: Option<string>)

  /** What hashing the password and inserting the row came to. */
  datatype InsertOutcome =
    | Inserted(userId: nat)
    | DuplicateEntry        // the error's code is ER_DUP_ENTRY
    | InsertFailed          // any other error

  /** `POST /auth/register`. `sign` stands for `jwt.sign` of a user id. */
  function Register(body: RegisterBody, insert: InsertOutcome, sign: nat -> string): (r: Response)
    ensures KnownStatus(r.Status())
    ensures r == Failure(400, RegisterFieldsRequired) <==>
              !(Truthy(body.username) && Truthy(body.email) && Truthy(body.password))
    ensures r == Failure(400, BadEmail) <==>
              Truthy(body.username) && Truthy(body.email) && Truthy(body.password) && !EmailOk(body.email.value)
    ensures r.Status() == 201 <==>
              && Truthy(body.username) && Truthy(body.email) && Truthy(body.password)
              && EmailOk(body.email.value) && insert.Inserted?
    ensures r.Status() == 201 ==> r == Registered(sign(insert.userId), body.username.value)
    ensures r.Status() == 409 <==>
              && Truthy(body.username) && Truthy(body.email) && Truthy(body.password)
              && EmailOk(body.email.value) && insert.DuplicateEntry?
    ensures r.Status() == 409 ==> r == Failure(409, AlreadyTaken)
    ensures r.Status() == 500 <==>
              && Truthy(body.username) && Truthy(body.email) && Truthy(body.password)
              && EmailOk(body.email.value) && insert.InsertFailed?
    ensures r.Status() == 500 ==> r == Failure(500, ServerError)
  {
    if !(Truthy(body.username) && Truthy(body.email) && Truthy(body.password)) then
      Failure(400, RegisterFieldsRequired)
    else if !EmailOk(body.email.value) then
      Failure(400, BadEmail)
    else
      match insert
      case Inserted(id) => Registered(sign(id), body.username.value)
      case DuplicateEntry => Failure(409, AlreadyTaken)
      case InsertFailed => Failure(500, ServerError)
  }

  /** A missing field is reported before the email format is looked at. */
  lemma MissingFieldBeforeEmail(body: RegisterBody, insert: InsertOutcome, sign: nat -> string)
    requires !Truthy(body.username) || !Truthy(body.password)
    ensures Register(body, insert, sign) == Failure(400, RegisterFieldsRequired)
  {
  }

  // ---------------------------------------------------------------------------
  // POST /auth/login
  // ---------------------------------------------------------------------------

  datatype LoginBody = LoginBody(username: Option<string>, password: Option<string>)

  /** The row found by username or email. */
  datatype UserRow = UserRow(id: nat, storedUsername: Option<string>, passwordHash: string)

  /** What the user query came to. */
  datatype Lookup = NoUser | Found(row: UserRow) | LookupFailed

  /**
   * `POST /auth/login`. `lookup` is the query by username or email,
   * `passwordMatches` stands for `bcrypt.compare` and `sign` for `jwt.sign`.
   */
  function Login(body: LoginBody, lookup: string -> Lookup, passwordMatches: (string, string) -> bool,
                 sign: nat -> string): (r: Response)
    ensures KnownStatus(r.Status())
    ensures r == Failure(400, LoginFieldsRequired) <==> !(Truthy(body.username) && Truthy(body.password))
    ensures r == Failure(500, ServerError) <==>
              Truthy(body.username) && Truthy(body.password) && lookup(body.username.value).LookupFailed?
    ensures r.Status() == 401 ==> r == Failure(401, BadCredentials)
    ensures r.Status() == 401 <==>
              && Truthy(body.username) && Truthy(body.password)
              && match lookup(body.username.value)
                 case NoUser => true
                 case Found(row) => !passwordMatches(body.password.value, row.passwordHash)
                 case LookupFailed => false
    ensures r.LoggedIn? ==> exists row ::
              && lookup(body.username.value) == Found(row)
              && passwordMatches(body.password.value, row.passwordHash)
              && r.token == sign(row.id)
              && r.username == (if Truthy(row.storedUsername) then row.storedUsername.value else body.username.value)
    ensures && Truthy(body.username) && Truthy(body.password)
            && lookup(body.username.value).Found?
            && passwordMatches(body.password.value, lookup(body.username.value).row.passwordHash) ==>
              var row := lookup(body.username.value).row;
              r == LoggedIn(sign(row.id), if Truthy(row.storedUsername) then row.storedUsername.value
                                          else body.username.value)
  {
    if !(Truthy(body.username) && Truthy(body.password)) then
      Failure(400, LoginFieldsRequired)
    else
      var name, password := body.username.value, body.password.value;
      match lookup(name)
      case LookupFailed => Failure(500, ServerError)
      case NoUser => Failure(401, BadCredentials)
      case Found(row) =>
        if !passwordMatches(password, row.passwordHash) then Failure(401, BadCredentials)
        else LoggedIn(sign(row.id), if Truthy(row.storedUsername) then row.storedUsername.value else name)
  }

  /** An unknown user and a wrong password get the very same answer. */
  lemma UnknownUserLooksLikeWrongPassword(body: LoginBody, lookup1: string -> Lookup, lookup2: string -> Lookup,
                                          passwordMatches: (string, string) -> bool, sign: nat -> string)
    requires Truthy(body.username) && Truthy(body.password)
    requires lookup1(body.username.value) == NoUser
    requires lookup2(body.username.value).Found?
    requires !passwordMatches(body.password.value, lookup2(body.username.value).row.passwordHash)
    ensures Login(body, lookup1, passwordMatches, sign) == Login(body, lookup2, passwordMatches, sign)
  {
  }

  // ---------------------------------------------------------------------------
  // GET and POST /config, behind authMiddleware
  // ---------------------------------------------------------------------------

  /** What reading the user's latest configuration came to. */
  datatype ConfigRead = NoConfig | StoredConfig(data: string) | ReadFailed

  /** `GET /config`: the latest stored configuration, or `null` when there is none. */
  function ConfigGet(header: Option<string>, verify: string -> Option<nat>, read: nat -> ConfigRead): (r: Response)
    ensures KnownStatus(r.Status())
    ensures Authenticate(header, verify).Rejected? ==> r == Authenticate(header, verify).response
    ensures Authenticate(header, verify).Authorized? ==>
              var id := Authenticate(header, verify).userId;
              && (read(id) == NoConfig <==> r == ConfigBody(None))
              && (read(id).StoredConfig? ==> r == ConfigBody(Some(read(id).data)))
              && (r.ConfigBody? && r.config.Some? ==> read(id) == StoredConfig(r.config.value))
              && (read(id) == ReadFailed <==> r == Failure(500, ServerError))
  {
    match Authenticate(header, verify)
    case Rejected(response) => response
    case Authorized(id) =>
      match read(id)
      case NoConfig => ConfigBody(None)
      case StoredConfig(data) => ConfigBody(Some(data))
      case ReadFailed => Failure(500, ServerError)
  }

  /**
   * `POST /config`. `config` is the body's `config` as JSON text, None when
   * it is missing or `null`; `save` stands for the update-or-insert and says
   * whether it succeeded.
   */
  function ConfigPost(header: Option<string>, verify: string -> Option<nat>, config: Option<string>,
                      save: (nat, string) -> bool): (r: Response)
    ensures KnownStatus(r.Status())
    ensures Authenticate(header, verify).Rejected? ==> r == Authenticate(header, verify).response
    ensures Authenticate(header, verify).Authorized? ==>
              var id := Authenticate(header, verify).userId;
              && (config.None? <==> r == Failure(400, ConfigRequired))
              && (r == Saved <==> config.Some? && save(id, config.value))
              && (r == Failure(500, ServerError) <==> config.Some? && !save(id, config.value))
  {
    match Authenticate(header, verify)
    case Rejected(response) => response
    case Authorized(id) =>
      if config.None? then Failure(400, ConfigRequired)
      else if save(id, config.value) then Saved
      else Failure(500, ServerError)
  }

  /**
   * Unlike the register fields, a falsy configuration is still a configuration:
   * `??` refuses only `null`, so the JSON empty string `""` is saved.
   */
  lemma EmptyConfigIsSaved(header: Option<string>, verify: string -> Option<nat>, save: (nat, string) -> bool)
    requires Authenticate(header, verify).Authorized?
    requires save(Authenticate(header, verify).userId, "\"\"")
    ensures ConfigPost(header, verify, Some("\"\""), save) == Saved
  {
  }
}

=== FILE: wrappers.dfy ===
/** Optional values: the model's stand-in for JavaScript's `undefined`/`null`. */
module Wrappers {

  datatype Option<+T> = None | Some(value: T) {

    /** The value, or `default` when there is none. */
    function GetOr(default: T): T {
      match this
      case Some(v) => v
      case None => default
    }
  }
}
